=== FILE: README.md ===
# Fyyur, modelled in Dafny

Fyyur is a small booking site for venues, artists and the shows that bring them together.
Its logic lives in the Flask route handlers of `app.py`. They work over three
SQLAlchemy tables defined in `models.py`. This project models that logic with the database
as in-memory sequences of rows, and proves what the handlers promise.

- `seqs.dfy`: `Option`, and `Filter`, the sequence form of a `WHERE` clause, with its
  algebra (splitting by complementary conditions, composing conditions).
- `text.dfy`: the case-insensitive substring test `name ILIKE '%term%'` over ASCII
  lower-casing, with the searches documented in the handlers' comments.
- `models.dfy`: the `Venue`, `Artist` and `Show` rows and the store of three tables.
  - The table constraints are unique ids and names, foreign keys from shows that
    resolve, and the declared lengths of the `String(120)` and `String(500)` columns
    (each `genres` entry of an artist included). NOT NULL columns are plain fields;
    nullable ones are `Option`.
  - How PostgreSQL assigns a text to a `varchar(n)` column: a longer text is refused
    unless every character past `n` is a space, and then it is stored cut to `n`
    characters. A commit accepts a state whose values are accepted this way, and stores
    it with every value cut.
  - The `details`, `artist_show` and `venue_show` projections.
  - How an INSERT turns a half-filled object into a row: column defaults apply, and an
    unset NOT NULL column fails.
- `request.dfy`: the submitted form as a map from keys to value lists, with `get`,
  `get` with a default, and `getlist`.
- `venues_index.dfy`: the `venues` handler.
  - An imperative loop over the venues ordered by city.
  - It keeps the previous `city + state` key, and either appends to the last area or
    opens a new one.
  - The loop is proved against the recursive specification `Grouped`.
- `search.dfy`: the `search_venues` and `search_artists` handlers, as loops that build
  `response`.
- `detail.dfy`: the `show_venue` and `show_artist` pages.
  - Each page holds the row's details and its shows split at `now` into past and
    upcoming.
  - The show queries are inner joins with Venue and Artist.
- `shows_listing.dfy`: the `shows` page, every show latest first with its venue's and
  artist's names.
- `database.dfy`: the class `Db` holding the three tables, and the create, edit and
  delete handlers that change them.
  - A commit is all or nothing: it succeeds exactly when the table constraints hold on
    the new state. Otherwise the session rolls back.
  - Pure lemmas say when each commit goes through and what it changes.

Times are integers and `now` is a parameter. The model follows the code as written,
including these behaviours:
- Areas are keyed by the concatenation `city + state`, not by the (city, state) pair. So
  "ab"/"c" and "a"/"bc" share an area.
- Only the query's city order keeps equal keys together. One city in two states,
  interleaved, splits an area (`CityOrderCanSplitAnArea`).
- A first venue whose city and state are both empty makes the handler index an empty
  list, so the page fails.
- Deleting a venue that a show still refers to violates the foreign key, so the delete
  rolls back.
- An edit assigns every column, including `seeking_description`. An UPDATE applies no
  column default, so an edit form without that field fails, like one without a name.

## Model

| member | source | states |
|---|---|---|
| Seqs.Filter | projects/01_fyyur/starter_code/app.py:120 | a query's result has no more rows than the table, and a row is in it exactly when it is in the table and meets the condition |
| Seqs.FilterPartition | projects/01_fyyur/starter_code/app.py:142-143 | two complementary conditions split a table: each row lands in exactly one result, as often as in the table, and the sizes add up |
| Text.EmptyTermMatchesEveryName | projects/01_fyyur/starter_code/app.py:118-120 | `'%' + '' + '%'` matches every name |
| Text.CaseOfEitherSideIsIgnored | projects/01_fyyur/starter_code/app.py:120 | whether a name matches does not depend on the case of the name or of the term |
| Text.DocumentedVenueSearches | projects/01_fyyur/starter_code/app.py:114-115 | "Hop" and "Music" find "The Musical Hop"; "Music" finds "Park Square Live Music & Coffee" |
| Text.DocumentedArtistSearches | projects/01_fyyur/starter_code/app.py:217-218 | "A" finds "Guns N Petals", "Matt Quevado" and "The Wild Sax Band"; "band" finds "The Wild Sax Band" |
| Models.VenueColumn | projects/01_fyyur/starter_code/models.py:12-27 | a venue row has a value in exactly the twelve columns of the Venue table |
| Models.ArtistColumn | projects/01_fyyur/starter_code/models.py:52-66 | an artist row has a value in exactly the eleven columns of the Artist table |
| Models.VenueDetails | projects/01_fyyur/starter_code/models.py:30-44 | `Venue.details` has the venue's columns as keys, with `website_link` renamed to `website` |
| Models.VenueDetailsFromColumns | projects/01_fyyur/starter_code/models.py:31-44 | each value of `Venue.details` is the same-named column, and `website` is `website_link` |
| Models.VenueDetailsSize | projects/01_fyyur/starter_code/models.py:31-44 | `Venue.details` has exactly 12 keys |
| Models.ArtistDetails | projects/01_fyyur/starter_code/models.py:70-83 | `Artist.details` has the artist's columns as keys, with `website_link` renamed to `website` |
| Models.ArtistDetailsFromColumns | projects/01_fyyur/starter_code/models.py:71-83 | each value of `Artist.details` is the same-named column, and `website` is `website_link` |
| Models.ArtistDetailsSize | projects/01_fyyur/starter_code/models.py:71-83 | `Artist.details` has exactly 11 keys |
| Models.DetailsShapes | projects/01_fyyur/starter_code/models.py:70-83 | the artist shape is the venue shape without `address` and `looking_for_talent`, with `looking_for_venue` |
| Models.VenueIndex | projects/01_fyyur/starter_code/app.py:327 | the position of the first venue row with the id, found exactly when one exists |
| Models.ArtistIndex | projects/01_fyyur/starter_code/app.py:282 | the position of the first artist row with the id, found exactly when one exists |
| Models.FindVenue | projects/01_fyyur/starter_code/app.py:140-141 | `filter_by(id=...)[0]` finds a venue row with that id, and finds one exactly when one exists |
| Models.FindArtist | projects/01_fyyur/starter_code/app.py:243-244 | the same for artists |
| Models.ArtistShow | projects/01_fyyur/starter_code/models.py:106-112 | `artist_show` carries the show's own artist id and start time, and the name and image link of the artist with that id |
| Models.VenueShow | projects/01_fyyur/starter_code/models.py:113-119 | `venue_show` carries the show's own venue id and start time, and the name and image link of the venue with that id |
| Models.Clip | projects/01_fyyur/starter_code/models.py:14-19 | a stored text is the prefix of the assigned text of exactly the column's length when the text is longer, and the text itself when it fits; for an accepted text only spaces are cut |
| Models.ClipIn | projects/01_fyyur/starter_code/models.py:19 | a nullable column keeps NULL and stores a set text as `Clip` does; a fitting text is kept |
| Models.ClipAll | projects/01_fyyur/starter_code/models.py:57 | each entry of the `ARRAY(String(120))` genres is clipped to 120 characters |
| Models.StoredVenue | projects/01_fyyur/starter_code/models.py:14-27 | the stored venue row has each bounded column clipped to its declared length, keeps the id, name, genres and `looking_for_talent`, fits every declared length, and is the row itself when it fits |
| Models.StoredArtist | projects/01_fyyur/starter_code/models.py:54-66 | the stored artist row has each bounded column and each genre clipped to its declared length, keeps the id, name and `looking_for_venue`, fits every declared length, and is the row itself when it fits |
| Models.Stored | projects/01_fyyur/starter_code/models.py:12-66 | the tables as stored have the same sizes and shows, and each venue and artist row is its stored form |
| Models.SpacePaddedValueIsCut | projects/01_fyyur/starter_code/models.py:14 | a city of "X" and 120 spaces is accepted and stored with 119 spaces; a city of 121 letters is refused |
| Models.FittingStoreIsStoredAsIs | projects/01_fyyur/starter_code/models.py:12-66 | a state whose values fit is accepted exactly when it is consistent, and is stored unchanged |
| Models.StoredRowsFit | projects/01_fyyur/starter_code/models.py:12-66 | every row of a stored state fits its declared column lengths |
| Models.StoredKeepsKeys | projects/01_fyyur/starter_code/models.py:12-95 | clipping keeps ids, names and references, so unique keys and resolving foreign keys keep holding |
| Models.AdmittedIsStoredConsistent | projects/01_fyyur/starter_code/models.py:12-95 | whatever a commit accepts, it stores as a consistent state |
| Models.InsertedVenue | projects/01_fyyur/starter_code/models.py:12-27 | an INSERT succeeds exactly when name, city, state, address, phone, image_link and genres are set; set columns keep their values under the new id; `looking_for_talent` defaults to false, `seeking_description` to its placeholder, the links to NULL |
| Models.InsertedArtist | projects/01_fyyur/starter_code/models.py:52-66 | the same for artists, without `address`, with `looking_for_venue` and the venue-seeking placeholder |
| VenuesIndex.Grouped | projects/01_fyyur/starter_code/app.py:90-107 | the grouping has at most one area per venue and has areas exactly when there are venues |
| VenuesIndex.Venues | projects/01_fyyur/starter_code/app.py:75-107 | the loop fails exactly when the first venue's `city + state` is empty; otherwise it returns `Grouped`, whose lists concatenate to every venue's entry in query order with its upcoming-show count; no area is empty and neighbouring areas have different keys |
| VenuesIndex.GroupedStep | projects/01_fyyur/starter_code/app.py:86-107 | one loop step: a venue whose key equals the previous venue's is appended to the last area, any other venue opens an area with its own city and state |
| VenuesIndex.GroupedFlatten | projects/01_fyyur/starter_code/app.py:86-107 | concatenating the areas' `venues` lists gives every queried venue exactly once, in query order, with its count of shows after `now` |
| VenuesIndex.GroupedLastKey | projects/01_fyyur/starter_code/app.py:96-100 | the last area carries the key of the last venue walked |
| VenuesIndex.GroupedAreasNonEmpty | projects/01_fyyur/starter_code/app.py:90-107 | no area is empty |
| VenuesIndex.GroupedAdjacentKeysDiffer | projects/01_fyyur/starter_code/app.py:90-107 | neighbouring areas have different `city + state` keys |
| VenuesIndex.GroupedKeysComeFromVenues | projects/01_fyyur/starter_code/app.py:96-101 | every area's key is the key of some queried venue |
| VenuesIndex.NewKeyNotWalkedBefore | projects/01_fyyur/starter_code/app.py:90 | when equal keys are contiguous, a key that differs from the previous venue's is new |
| VenuesIndex.ContiguousKeysGiveDistinctAreas | projects/01_fyyur/starter_code/app.py:80-107 | when the query keeps equal keys together, no key names two areas |
| VenuesIndex.CityOrderCanSplitAnArea | projects/01_fyyur/starter_code/app.py:80 | ordering by city alone can interleave two states of one city, giving two areas with one key |
| VenuesIndex.ConcatenatedKeysMergeAreas | projects/01_fyyur/starter_code/app.py:80-107 | a venue in "a", "bc" and one in "ab", "c", in that city order, end up in a single area, listed under "a", "bc" |
| Search.MatchingVenues | projects/01_fyyur/starter_code/app.py:120 | a venue is found exactly when it is in the table and its name contains the term, ignoring case |
| Search.MatchingArtists | projects/01_fyyur/starter_code/app.py:223 | an artist is found exactly when it is in the table and its name contains the term, ignoring case |
| Search.SearchVenues | projects/01_fyyur/starter_code/app.py:117-131 | `count` equals the length of `data` and the number of matches; entry `i` is match `i`'s id and name with its show count |
| Search.SearchArtists | projects/01_fyyur/starter_code/app.py:220-234 | the same for artists |
| Search.MissingTermIsEmpty | projects/01_fyyur/starter_code/app.py:118 | a form without `search_term` searches for the empty term |
| Search.EmptyTermFindsAllVenues | projects/01_fyyur/starter_code/app.py:118-120 | the empty term returns the whole venue table in order |
| Search.EmptyTermFindsAllArtists | projects/01_fyyur/starter_code/app.py:221-223 | the empty term returns the whole artist table in order |
| Search.VenueSearchSplitsTable | projects/01_fyyur/starter_code/app.py:120 | the matching and the non-matching venues together are the whole table |
| Search.VenueSearchIgnoresTermCase | projects/01_fyyur/starter_code/app.py:120 | a term and its lower-cased form find the same venues |
| Search.ArtistSearchSplitsTable | projects/01_fyyur/starter_code/app.py:223 | the matching and the non-matching artists together are the whole table |
| Search.ArtistSearchIgnoresTermCase | projects/01_fyyur/starter_code/app.py:223 | a term and its lower-cased form find the same artists |
| Detail.VenueShows | projects/01_fyyur/starter_code/app.py:142-143 | the venue's shows are exactly its shows whose venue and artist both exist (the inner join) |
| Detail.ArtistShows | projects/01_fyyur/starter_code/app.py:245-246 | the artist's shows are exactly its shows whose venue and artist both exist |
| Detail.ArtistRows | projects/01_fyyur/starter_code/app.py:144-145 | one `artist_show` entry per show, with that show's artist id and start time |
| Detail.VenueRows | projects/01_fyyur/starter_code/app.py:247-248 | one `venue_show` entry per show, with that show's venue id and start time |
| Detail.ShowVenue | projects/01_fyyur/starter_code/app.py:134-147 | the page fails exactly when no venue has the id; otherwise it holds that venue's details, `past_shows` is the `artist_show` of each of the venue's joined shows at or before `now` and `upcoming_shows` of each one after it, one entry per show in table order, and each count equals its list's length |
| Detail.ShowArtist | projects/01_fyyur/starter_code/app.py:237-250 | the page fails exactly when no artist has the id; otherwise it holds that artist's details, `past_shows` is the `venue_show` of each of the artist's joined shows at or before `now` and `upcoming_shows` of each one after it, one entry per show in table order, and each count equals its list's length |
| Detail.PastUpcomingPartition | projects/01_fyyur/starter_code/app.py:142-143 | past (`<= now`) and upcoming (`> now`) hold exactly those shows, are disjoint, and together are all the shows |
| Detail.VenuePageCoversShows | projects/01_fyyur/starter_code/app.py:142-147 | past and upcoming counts add up to the venue's joined shows; past entries start at or before `now`, upcoming ones after it |
| Detail.ArtistPageCoversShows | projects/01_fyyur/starter_code/app.py:245-250 | the same for the artist page |
| Detail.ArtistRowsMembers | projects/01_fyyur/starter_code/app.py:144-145 | an entry is in the mapped list exactly when it is the `artist_show` of one of the shows |
| Detail.VenueRowsMembers | projects/01_fyyur/starter_code/app.py:247-248 | an entry is in the mapped list exactly when it is the `venue_show` of one of the shows |
| Detail.VenuePageLists | projects/01_fyyur/starter_code/app.py:142-145 | an entry is in `past_shows` exactly when it is the `artist_show` of a joined show of the venue at or before `now`, and in `upcoming_shows` exactly when of one after it |
| Detail.ArtistPageLists | projects/01_fyyur/starter_code/app.py:245-248 | an entry is in `past_shows` exactly when it is the `venue_show` of a joined show of the artist at or before `now`, and in `upcoming_shows` exactly when of one after it |
| Detail.PastShowIsPastAtItsVenue | projects/01_fyyur/starter_code/app.py:142-145 | a joined show at or before `now` is listed as past, and not as upcoming, on its venue's page |
| Detail.PastShowIsPastForItsArtist | projects/01_fyyur/starter_code/app.py:245-248 | a joined show at or before `now` is listed as past, and not as upcoming, on its artist's page |
| Detail.FutureShowIsUpcomingAtItsVenue | projects/01_fyyur/starter_code/app.py:143-145 | a joined show after `now` is listed as upcoming, and not as past, on its venue's page |
| Detail.FutureShowIsUpcomingForItsArtist | projects/01_fyyur/starter_code/app.py:246-248 | a joined show after `now` is listed as upcoming, and not as past, on its artist's page |
| Detail.IndexCountMatchesVenuePage | projects/01_fyyur/starter_code/app.py:89 | in a consistent store where every show at the venue has an artist, the index's count equals the page's `upcoming_shows_count` at the same `now`; the two pages read different clocks, so as rendered their counts can differ |
| ShowsListing.DescendingPairwise | projects/01_fyyur/starter_code/app.py:392 | in a latest-first list no show starts after any earlier one |
| ShowsListing.Insert | projects/01_fyyur/starter_code/app.py:392 | inserting a show keeps a list latest first and adds exactly that show |
| ShowsListing.ByStartDescending | projects/01_fyyur/starter_code/app.py:392 | `ORDER BY start_time DESC` is latest first and a permutation of the shows |
| ShowsListing.Listed | projects/01_fyyur/starter_code/app.py:397-404 | an entry carries the show's ids and start time, the name of the venue with that id, and the name and image of the artist with that id |
| ShowsListing.ListedAllOfReordering | projects/01_fyyur/starter_code/app.py:392-404 | the entries built for two orderings of the same shows are the same entries, each as often as its show occurs |
| ShowsListing.ListingOfReordering | projects/01_fyyur/starter_code/app.py:392-404 | the entries of a latest-first reordering are the entries of those shows in that order; they hold every show's entry as often as the show occurs, each comes from a show, and they are latest first |
| ShowsListing.Shows | projects/01_fyyur/starter_code/app.py:386-405 | fails exactly when some show's venue or artist is unset or missing; otherwise the listing is the entry of each show of `ByStartDescending`, in that order: one entry per show, the same entries as the table's with the same repetitions, every show's entry present, latest first |
| Database.EditedVenue | projects/01_fyyur/starter_code/app.py:329-339 | the edited row keeps the id; each editable field is the form's value; genres is the full list; `looking_for_talent` is true exactly when its key is present; fails exactly when a NOT NULL field is missing |
| Database.EditedArtist | projects/01_fyyur/starter_code/app.py:283-292 | the same for artists, with `looking_for_venue` |
| Database.Db.Commit | projects/01_fyyur/starter_code/app.py:169-173 | the commit succeeds exactly when the keys and foreign keys hold on the new state and every value is accepted by its column, and the tables then become that state with over-long values cut; otherwise the tables stay as they were |
| Database.Db.CreateVenueSubmission | projects/01_fyyur/starter_code/app.py:162-181 | an invalid form changes nothing; otherwise the venue is stored exactly when the insert succeeds and the constraints hold, adding that one row with its over-long values cut; failure leaves the tables unchanged |
| Database.Db.CreateArtistSubmission | projects/01_fyyur/starter_code/app.py:360-379 | the same for artists |
| Database.Db.CreateShowSubmission | projects/01_fyyur/starter_code/app.py:414-440 | an invalid form changes nothing; otherwise the show is added exactly when its id is free and its references resolve, and failure changes nothing |
| Database.Db.EditVenueSubmission | projects/01_fyyur/starter_code/app.py:324-346 | assigns the fields one by one and commits `EditVenue`, stored with over-long values cut; an unknown id, a missing NOT NULL field or a broken constraint rolls back and leaves the tables unchanged |
| Database.Db.EditArtistSubmission | projects/01_fyyur/starter_code/app.py:279-299 | the same for artists |
| Database.Db.DeleteVenueSubmission | projects/01_fyyur/starter_code/app.py:184-195 | commits the table without the id's rows exactly when that state is consistent, and otherwise leaves the tables unchanged |
| Database.AddVenueConsistent | projects/01_fyyur/starter_code/app.py:164-175 | a new venue commits exactly when each bounded column accepts its value (fits, or only spaces past the length) and no venue has its id or its name, so a duplicate name or a city with a letter past 120 is refused |
| Database.AddArtistConsistent | projects/01_fyyur/starter_code/app.py:362-373 | a new artist commits exactly when each bounded column and each genre accepts its value and no artist has its id or its name |
| Database.AddShowConsistent | projects/01_fyyur/starter_code/models.py:92-95 | a new show commits exactly when its id is free and the venue and artist it names, where set, exist |
| Database.ReplaceVenueConsistent | projects/01_fyyur/starter_code/app.py:327-343 | replacing a venue row by one with the same id commits exactly when the columns accept the new row's values and no other venue has its name |
| Database.ReplaceArtistConsistent | projects/01_fyyur/starter_code/app.py:282-295 | replacing an artist row by one with the same id commits exactly when the columns accept the new row's values and no other artist has its name |
| Database.EditVenueConsistent | projects/01_fyyur/starter_code/app.py:327-343 | an edit commits exactly when the columns accept the edited row's values and the new name is not another venue's; it then stores the other rows as they were and the edited row with its over-long values cut |
| Database.EditArtistConsistent | projects/01_fyyur/starter_code/app.py:282-295 | an artist edit commits exactly when the columns accept the edited row's values and the new name is not another artist's; it then stores the edited row with its over-long values cut |
| Database.StoredWithVenue | projects/01_fyyur/starter_code/app.py:167-169 | committing a consistent store plus one venue keeps the existing rows as they are and stores the new row with its over-long values cut |
| Database.StoredWithArtist | projects/01_fyyur/starter_code/app.py:366-368 | the same for one new artist |
| Database.StoredReplaceVenue | projects/01_fyyur/starter_code/app.py:341 | committing a consistent store with one venue row replaced keeps the other rows and stores the new row with its over-long values cut |
| Database.StoredReplaceArtist | projects/01_fyyur/starter_code/app.py:293 | the same for one artist row replaced |
| Database.DeleteVenueConsistent | projects/01_fyyur/starter_code/app.py:188-192 | deleting a venue commits exactly when no show refers to it |
| Database.FilterUnique | projects/01_fyyur/starter_code/models.py:12-13 | removing rows keeps the remaining venues' ids and names unique |
| Database.DeleteRemovesOnlyThatVenue | projects/01_fyyur/starter_code/app.py:188 | the delete removes exactly the rows with the id (one if it exists, none otherwise) and keeps artists and shows |
| Database.EditIsFullReplace | projects/01_fyyur/starter_code/app.py:329-339 | nothing of the old venue row but its id survives an edit |
| Database.EditArtistIsFullReplace | projects/01_fyyur/starter_code/app.py:283-292 | nothing of the old artist row but its id survives an edit |
| Database.EditVenueTouchesOneRow | projects/01_fyyur/starter_code/app.py:327-341 | an edit changes only the edited venue row; the table keeps its size |
| Database.EditArtistTouchesOneRow | projects/01_fyyur/starter_code/app.py:282-293 | an edit changes only the edited artist row |
| Database.EditVenueRejected | projects/01_fyyur/starter_code/app.py:326-344 | the venue edit rolls back, whatever the other rows hold, exactly when the id is unknown (the lookup raises) or a NOT NULL field is missing from the form (the flush at commit refuses the NULL) |
| Database.EditArtistRejected | projects/01_fyyur/starter_code/app.py:281-296 | the artist edit rolls back, whatever the other rows hold, exactly when the id is unknown (the lookup raises) or a NOT NULL field is missing from the form (the flush at commit refuses the NULL) |
| Database.TalentFlagFollowsPresence | projects/01_fyyur/starter_code/app.py:339 | `looking_for_talent` is true whenever its key is present, whatever its value, and false when it is absent |
| Database.VenueFlagFollowsPresence | projects/01_fyyur/starter_code/app.py:291 | `looking_for_venue` is true whenever its key is present, whatever its value, and false when it is absent |

## Left out

- Flask plumbing is not modelled: routing, templates, `flash` messages, redirects, CSRF,
  error pages, logging and `app.run`. It is framework I/O. What a handler renders or
  flashes shows up only as its `Outcome` or its returned data.
- `format_datetime` and the string form of `start_time` (dateutil and babel formatting).
  Start times are integers.
- The clock is not modelled. `datetime.now()` / `utcnow()` and the index's comparison
  against a time string in the format `'%Y-%m-%d %H:%S:%M'` (minutes and seconds
  swapped) are replaced by the integer parameter `now`.
- Form validation is not modelled. `validate()` and `populate_obj` of `VenueForm`,
  `ArtistForm` and `ShowForm` come from a module that is not part of this model; they
  appear as the `formValid` flag and as the draft or the show's fields passed in.
- Database ids are not generated: the id a new row receives is the parameter `newId`.
  A colliding id fails the commit like any other broken constraint.
- Search.SearchVenues: `num_upcoming_shows` is left open, as the `upcomingCount`
  parameter. It counts the rows of a Venue-join-Show query, and how the ORM
  de-duplicates them is library behaviour.
- Search.SearchArtists: `num_upcoming_shows` is left open in the same way.
- The search is plain case-insensitive substring matching. `%` and `_` inside the term
  would act as `ilike` wildcards, `\` as the `ilike` escape character, and case folding
  covers only ASCII letters.
- Database orderings are modelled only in part.
  - `order_by('city')` is the order of the sequence handed to `VenuesIndex.Venues`,
    whatever the collation.
  - ShowsListing.ByStartDescending: shows with equal start times come out in one fixed
    order, while the database promises none.
  - Rows without an `ORDER BY` (detail pages, searches) come in table order.
- `Show.start_time` is nullable in the schema, but every modelled show has a time. A
  show without one is neither past nor upcoming in SQL.
- Failures of the storage engine other than constraint violations are not modelled
  (lost connections, session closing).
- Concurrent requests and transaction isolation are not modelled.
- The `artists` listing, the edit-form pages that prefill a form from a row, and
  `Show.details` (unused by any handler) are not part of this model.

=== FILE: database.dfy ===
/** The handlers that change the database: create, edit and delete. Each one builds the next
    state of the tables and commits it; the commit succeeds when the table constraints hold
    on that state and stores it with over-long values cut to their columns, and otherwise the
    session rolls back and the tables stay as they were. */
module Database {
  import opened Wrappers
  import opened Seqs
  import opened Models
  import opened Request

  /** How a submission ends: committed, rolled back after a failure, or refused by form validation. */
  datatype Outcome = Committed | RolledBack | Invalid

  // ---------------------------------------------------------------------------
  // The next states the handlers build
  // ---------------------------------------------------------------------------

  function WithVenue(st: Store, v: Venue): Store
  {
    st.(venues := st.venues + [v])
  }

  function WithArtist(st: Store, a: Artist): Store
  {
    st.(artists := st.artists + [a])
  }

  function WithShow(st: Store, s: Show): Store
  {
    st.(shows := st.shows + [s])
  }

  /** The row an UPDATE that assigns every column of the draft leaves under `id`. Unlike an
      INSERT no default applies: an unset (NULL) NOT NULL column makes the update fail. */
  function AssignedVenue(id: int, d: VenueDraft): Option<Venue>
  {
    if VenueRequiredSet(d) && d.lookingForTalent.Some? && d.seekingDescription.Some? then
      Some(Venue(
        id, d.name.value, d.city.value, d.state.value, d.address.value, d.phone.value,
        d.imageLink.value, d.facebookLink, d.genres.value, d.websiteLink,
        d.lookingForTalent.value, d.seekingDescription.value))
    else None
  }

  /** The artist row an UPDATE assigning every column of the draft leaves under `id`. */
  function AssignedArtist(id: int, d: ArtistDraft): Option<Artist>
  {
    if ArtistRequiredSet(d) && d.lookingForVenue.Some? && d.seekingDescription.Some? then
      Some(Artist(
        id, d.name.value, d.city.value, d.state.value, d.phone.value, d.genres.value,
        d.imageLink.value, d.facebookLink, d.websiteLink,
        d.lookingForVenue.value, d.seekingDescription.value))
    else None
  }

  /** The editable venue fields as the form submits them: each single-valued field is the
      form's value or NULL, genres the full list, and the flag is whether its key is present. */
  function VenueFormDraft(form: Form): VenueDraft
  {
    VenueDraft(
      Get(form, "name"), Get(form, "city"), Get(form, "state"), Get(form, "address"),
      Get(form, "phone"), Get(form, "image_link"), Get(form, "facebook_link"),
      Some(GetList(form, "genres")), Get(form, "website_link"),
      Some("looking_for_talent" in form), Get(form, "seeking_description"))
  }

  /** The editable artist fields as the form submits them. */
  function ArtistFormDraft(form: Form): ArtistDraft
  {
    ArtistDraft(
      Get(form, "name"), Get(form, "city"), Get(form, "state"), Get(form, "phone"),
      Some(GetList(form, "genres")), Get(form, "image_link"), Get(form, "facebook_link"),
      Get(form, "website_link"), Some("looking_for_venue" in form), Get(form, "seeking_description"))
  }

  /** The form supplies every NOT NULL venue column the edit assigns. */
  predicate VenueFormComplete(form: Form)
  {
    Get(form, "name").Some? && Get(form, "city").Some? && Get(form, "state").Some? &&
    Get(form, "address").Some? && Get(form, "phone").Some? && Get(form, "image_link").Some? &&
    Get(form, "seeking_description").Some?
  }

  /** The form supplies every NOT NULL artist column the edit assigns. */
  predicate ArtistFormComplete(form: Form)
  {
    Get(form, "name").Some? && Get(form, "city").Some? && Get(form, "state").Some? &&
    Get(form, "phone").Some? && Get(form, "image_link").Some? &&
    Get(form, "seeking_description").Some?
  }

  /** The venue row after the edit: every editable field comes from the form and only the
      id is kept; it fails when a NOT NULL field is missing from the form. */
  function EditedVenue(v: Venue, form: Form): (r: Option<Venue>)
    ensures r.Some? <==> VenueFormComplete(form)
    ensures r.Some? ==> r.value.id == v.id
    ensures r.Some? ==> (
      r.value.name == Get(form, "name").value && r.value.city == Get(form, "city").value &&
      r.value.state == Get(form, "state").value && r.value.address == Get(form, "address").value &&
      r.value.phone == Get(form, "phone").value && r.value.imageLink == Get(form, "image_link").value &&
      r.value.seekingDescription == Get(form, "seeking_description").value)
    ensures r.Some? ==> r.value.genres == GetList(form, "genres")
    ensures r.Some? ==> r.value.facebookLink == Get(form, "facebook_link") && r.value.websiteLink == Get(form, "website_link")
    ensures r.Some? ==> (r.value.lookingForTalent <==> "looking_for_talent" in form)
  {
    AssignedVenue(v.id, VenueFormDraft(form))
  }

  /** The artist row after the edit. */
  function EditedArtist(a: Artist, form: Form): (r: Option<Artist>)
    ensures r.Some? <==> ArtistFormComplete(form)
    ensures r.Some? ==> r.value.id == a.id
    ensures r.Some? ==> (
      r.value.name == Get(form, "name").value && r.value.city == Get(form, "city").value &&
      r.value.state == Get(form, "state").value && r.value.phone == Get(form, "phone").value &&
      r.value.imageLink == Get(form, "image_link").value &&
      r.value.seekingDescription == Get(form, "seeking_description").value)
    ensures r.Some? ==> r.value.genres == GetList(form, "genres")
    ensures r.Some? ==> r.value.facebookLink == Get(form, "facebook_link") && r.value.websiteLink == Get(form, "website_link")
    ensures r.Some? ==> (r.value.lookingForVenue <==> "looking_for_venue" in form)
  {
    AssignedArtist(a.id, ArtistFormDraft(form))
  }

  /** The state `edit_venue_submission` commits; none when the edit rolls back whatever the
      other rows hold: the lookup of an unknown id raises, and a NOT NULL column set to NULL
      is refused when the commit flushes the UPDATE. */
  function EditVenue(st: Store, venueId: int, form: Form): Option<Store>
  {
    match VenueIndex(st.venues, venueId)
    case None => None
    case Some(i) =>
      match EditedVenue(st.venues[i], form)
      case None => None
      case Some(row) => Some(st.(venues := st.venues[i := row]))
  }

  /** The state `edit_artist_submission` tries to commit. */
  function EditArtist(st: Store, artistId: int, form: Form): Option<Store>
  {
    match ArtistIndex(st.artists, artistId)
    case None => None
    case Some(i) =>
      match EditedArtist(st.artists[i], form)
      case None => None
      case Some(row) => Some(st.(artists := st.artists[i := row]))
  }

  function IdIsNot(id: int): Venue -> bool
  {
    (v: Venue) => v.id != id
  }

  /** The state `delete_venue` tries to commit: `Venue.query.filter_by(id=...).delete()`. */
  function DeleteVenue(st: Store, venueId: int): Store
  {
    st.(venues := Filter(st.venues, IdIsNot(venueId)))
  }

  // ---------------------------------------------------------------------------
  // The database
  // ---------------------------------------------------------------------------

  /** The three tables. Every committed state satisfies the table constraints. */
  class Db {
    var venues: seq<Venue>
    var artists: seq<Artist>
    var shows: seq<Show>

    function Snapshot(): Store
      reads this
    {
      Store(venues, artists, shows)
    }

    predicate Valid()
      reads this
    {
      Consistent(Snapshot())
    }

    constructor(st: Store)
      requires Consistent(st)
      ensures Valid() && Snapshot() == st
    {
      venues, artists, shows := st.venues, st.artists, st.shows;
    }

    /** `db.session.commit()`, with `db.session.rollback()` on failure: all or nothing. A
        value longer than its column is stored cut to the column when the excess is spaces. */
    method Commit(next: Store) returns (outcome: Outcome)
      requires Valid()
      modifies this
      ensures Valid()
      ensures outcome == Committed <==> Admitted(next)
      ensures outcome == Committed ==> Snapshot() == Stored(next)
      ensures outcome != Committed ==> outcome == RolledBack && Snapshot() == old(Snapshot())
    {
      if Admitted(next) {
        AdmittedIsStoredConsistent(next);
        var stored := Stored(next);
        venues, artists, shows := stored.venues, stored.artists, stored.shows;
        outcome := Committed;
      } else {
        outcome := RolledBack;
      }
    }

    /** `create_venue_submission`: `formValid` is the result of `form.validate()` and `draft`
        the object `populate_obj` fills; `newId` is the id the database hands out. */
    method CreateVenueSubmission(formValid: bool, draft: VenueDraft, newId: int) returns (outcome: Outcome)
      requires Valid()
      modifies this
      ensures Valid()
      ensures outcome == Invalid <==> !formValid
      ensures outcome == Committed <==> (formValid && InsertedVenue(newId, draft).Some? &&
        Admitted(WithVenue(old(Snapshot()), InsertedVenue(newId, draft).value)))
      ensures outcome == Committed ==> Snapshot() == WithVenue(old(Snapshot()), StoredVenue(InsertedVenue(newId, draft).value))
      ensures outcome != Committed ==> Snapshot() == old(Snapshot())
    {
      if !formValid {
        return Invalid;
      }
      var row := InsertedVenue(newId, draft);
      if row.None? {
        return RolledBack;
      }
      StoredWithVenue(Snapshot(), row.value);
      outcome := Commit(WithVenue(Snapshot(), row.value));
    }

    /** `create_artist_submission`. */
    method CreateArtistSubmission(formValid: bool, draft: ArtistDraft, newId: int) returns (outcome: Outcome)
      requires Valid()
      modifies this
      ensures Valid()
      ensures outcome == Invalid <==> !formValid
      ensures outcome == Committed <==> (formValid && InsertedArtist(newId, draft).Some? &&
        Admitted(WithArtist(old(Snapshot()), InsertedArtist(newId, draft).value)))
      ensures outcome == Committed ==> Snapshot() == WithArtist(old(Snapshot()), StoredArtist(InsertedArtist(newId, draft).value))
      ensures outcome != Committed ==> Snapshot() == old(Snapshot())
    {
      if !formValid {
        return Invalid;
      }
      var row := InsertedArtist(newId, draft);
      if row.None? {
        return RolledBack;
      }
      StoredWithArtist(Snapshot(), row.value);
      outcome := Commit(WithArtist(Snapshot(), row.value));
    }

    /** `create_show_submission`: the show is built from the form's start time, venue id and
        artist id. */
    method CreateShowSubmission(formValid: bool, startTime: Timestamp, venueId: Option<int>, artistId: Option<int>, newId: int)
      returns (outcome: Outcome)
      requires Valid()
      modifies this
      ensures Valid()
      ensures outcome == Invalid <==> !formValid
      ensures outcome == Committed <==> formValid && Consistent(WithShow(old(Snapshot()), Show(newId, startTime, venueId, artistId)))
      ensures outcome == Committed ==> Snapshot() == WithShow(old(Snapshot()), Show(newId, startTime, venueId, artistId))
      ensures outcome != Committed ==> Snapshot() == old(Snapshot())
    {
      if !formValid {
        return Invalid;
      }
      var newShow := Show(newId, startTime, venueId, artistId);
      FittingStoreIsStoredAsIs(WithShow(Snapshot(), newShow));
      outcome := Commit(WithShow(Snapshot(), newShow));
    }

    /** `edit_venue_submission`: looks the venue up, assigns its fields one by one from the
        form and commits. A missing venue raises at the lookup; a NOT NULL column left NULL is
        refused when the commit flushes the UPDATE. Both roll back. */
    method EditVenueSubmission(venueId: int, form: Form) returns (outcome: Outcome)
      requires Valid()
      modifies this
      ensures Valid()
      ensures outcome == Committed <==> (EditVenue(old(Snapshot()), venueId, form).Some? &&
        Admitted(EditVenue(old(Snapshot()), venueId, form).value))
      ensures outcome == Committed ==> Snapshot() == Stored(EditVenue(old(Snapshot()), venueId, form).value)
      ensures outcome != Committed ==> outcome == RolledBack && Snapshot() == old(Snapshot())
    {
      var index := VenueIndex(venues, venueId);
      if index.None? {
        return RolledBack;
      }
      var i := index.value;
      var venue := VenueDraft(
        Some(venues[i].name), Some(venues[i].city), Some(venues[i].state), Some(venues[i].address),
        Some(venues[i].phone), Some(venues[i].imageLink), venues[i].facebookLink, Some(venues[i].genres),
        venues[i].websiteLink, Some(venues[i].lookingForTalent), Some(venues[i].seekingDescription));
      venue := venue.(name := Get(form, "name"));
      venue := venue.(city := Get(form, "city"));
      venue := venue.(state := Get(form, "state"));
      venue := venue.(address := Get(form, "address"));
      venue := venue.(phone := Get(form, "phone"));
      venue := venue.(genres := Some(GetList(form, "genres")));
      venue := venue.(facebookLink := Get(form, "facebook_link"));
      venue := venue.(websiteLink := Get(form, "website_link"));
      venue := venue.(imageLink := Get(form, "image_link"));
      venue := venue.(seekingDescription := Get(form, "seeking_description"));
      venue := venue.(lookingForTalent := Some("looking_for_talent" in form));
      assert venue == VenueFormDraft(form);
      var row := AssignedVenue(venues[i].id, venue);
      if row.None? {
        // the flush at commit refuses the NULL
        return RolledBack;
      }
      outcome := Commit(Snapshot().(venues := venues[i := row.value]));
    }

    /** `edit_artist_submission`. */
    method EditArtistSubmission(artistId: int, form: Form) returns (outcome: Outcome)
      requires Valid()
      modifies this
      ensures Valid()
      ensures outcome == Committed <==> (EditArtist(old(Snapshot()), artistId, form).Some? &&
        Admitted(EditArtist(old(Snapshot()), artistId, form).value))
      ensures outcome == Committed ==> Snapshot() == Stored(EditArtist(old(Snapshot()), artistId, form).value)
      ensures outcome != Committed ==> outcome == RolledBack && Snapshot() == old(Snapshot())
    {
      var index := ArtistIndex(artists, artistId);
      if index.None? {
        return RolledBack;
      }
      var i := index.value;
      var artist := ArtistDraft(
        Some(artists[i].name), Some(artists[i].city), Some(artists[i].state), Some(artists[i].phone),
        Some(artists[i].genres), Some(artists[i].imageLink), artists[i].facebookLink,
        artists[i].websiteLink, Some(artists[i].lookingForVenue), Some(artists[i].seekingDescription));
      artist := artist.(name := Get(form, "name"));
      artist := artist.(city := Get(form, "city"));
      artist := artist.(state := Get(form, "state"));
      artist := artist.(phone := Get(form, "phone"));
      artist := artist.(genres := Some(GetList(form, "genres")));
      artist := artist.(facebookLink := Get(form, "facebook_link"));
      artist := artist.(websiteLink := Get(form, "website_link"));
      artist := artist.(imageLink := Get(form, "image_link"));
      artist := artist.(lookingForVenue := Some("looking_for_venue" in form));
      artist := artist.(seekingDescription := Get(form, "seeking_description"));
      assert artist == ArtistFormDraft(form);
      var row := AssignedArtist(artists[i].id, artist);
      if row.None? {
        // the flush at commit refuses the NULL
        return RolledBack;
      }
      outcome := Commit(Snapshot().(artists := artists[i := row.value]));
    }

    /** `delete_venue`: deletes the rows with the id and commits. */
    method DeleteVenueSubmission(venueId: int) returns (outcome: Outcome)
      requires Valid()
      modifies this
      ensures Valid()
      ensures outcome == Committed <==> Consistent(DeleteVenue(old(Snapshot()), venueId))
      ensures outcome == Committed ==> Snapshot() == DeleteVenue(old(Snapshot()), venueId)
      ensures outcome != Committed ==> outcome == RolledBack && Snapshot() == old(Snapshot())
    {
      FittingStoreIsStoredAsIs(DeleteVenue(Snapshot(), venueId));
      outcome := Commit(Snapshot().(venues := Filter(venues, IdIsNot(venueId))));
    }
  }

  // ---------------------------------------------------------------------------
  // When a commit goes through
  // ---------------------------------------------------------------------------

  /** A new venue can be committed to a consistent store exactly when its columns accept
      its values and no venue already has its id or its name: a duplicate name is refused. */
  lemma {:induction false} AddVenueConsistent(st: Store, v: Venue)
    requires Consistent(st)
    ensures Admitted(WithVenue(st, v)) <==>
      VenueAdmits(v) && forall k :: 0 <= k < |st.venues| ==> st.venues[k].id != v.id && st.venues[k].name != v.name
  {
    var next := WithVenue(st, v);
    var n := |st.venues|;
    if !VenueAdmits(v) {
      assert next.venues[n] == v;
    } else if forall k :: 0 <= k < n ==> st.venues[k].id != v.id && st.venues[k].name != v.name {
      forall x | x in next.venues ensures VenueAdmits(x) {
        assert x in st.venues || x == v;
      }
      forall i, j | 0 <= i < j < |next.venues|
        ensures next.venues[i].id != next.venues[j].id && next.venues[i].name != next.venues[j].name
      {
        if j == n {
          assert next.venues[i] == st.venues[i];
        } else {
          assert next.venues[i] == st.venues[i] && next.venues[j] == st.venues[j];
        }
      }
      forall s | s in next.shows && s.venueId.Some?
        ensures HasVenue(next.venues, s.venueId.value)
      {
        var i :| 0 <= i < n && st.venues[i].id == s.venueId.value;
        assert next.venues[i] == st.venues[i];
      }
    } else {
      var k :| 0 <= k < n && !(st.venues[k].id != v.id && st.venues[k].name != v.name);
      assert next.venues[k] == st.venues[k] && next.venues[n] == v;
    }
  }

  /** A new artist can be committed to a consistent store exactly when its columns accept
      its values and no artist already has its id or its name. */
  lemma {:induction false} AddArtistConsistent(st: Store, a: Artist)
    requires Consistent(st)
    ensures Admitted(WithArtist(st, a)) <==>
      ArtistAdmits(a) && forall k :: 0 <= k < |st.artists| ==> st.artists[k].id != a.id && st.artists[k].name != a.name
  {
    var next := WithArtist(st, a);
    var n := |st.artists|;
    if !ArtistAdmits(a) {
      assert next.artists[n] == a;
    } else if forall k :: 0 <= k < n ==> st.artists[k].id != a.id && st.artists[k].name != a.name {
      forall x | x in next.artists ensures ArtistAdmits(x) {
        assert x in st.artists || x == a;
      }
      forall i, j | 0 <= i < j < |next.artists|
        ensures next.artists[i].id != next.artists[j].id && next.artists[i].name != next.artists[j].name
      {
        if j == n {
          assert next.artists[i] == st.artists[i];
        } else {
          assert next.artists[i] == st.artists[i] && next.artists[j] == st.artists[j];
        }
      }
      forall s | s in next.shows && s.artistId.Some?
        ensures HasArtist(next.artists, s.artistId.value)
      {
        var i :| 0 <= i < n && st.artists[i].id == s.artistId.value;
        assert next.artists[i] == st.artists[i];
      }
    } else {
      var k :| 0 <= k < n && !(st.artists[k].id != a.id && st.artists[k].name != a.name);
      assert next.artists[k] == st.artists[k] && next.artists[n] == a;
    }
  }

  /** A new show can be committed to a consistent store exactly when its id is unused and
      the venue and artist it names, where set, exist. */
  lemma {:induction false} AddShowConsistent(st: Store, s: Show)
    requires Consistent(st)
    ensures Consistent(WithShow(st, s)) <==>
      (forall k :: 0 <= k < |st.shows| ==> st.shows[k].id != s.id) &&
      (s.venueId.Some? ==> HasVenue(st.venues, s.venueId.value)) &&
      (s.artistId.Some? ==> HasArtist(st.artists, s.artistId.value))
  {
    var next := WithShow(st, s);
    var n := |st.shows|;
    assert s in next.shows;
    if forall k :: 0 <= k < n ==> st.shows[k].id != s.id {
      forall i, j | 0 <= i < j < |next.shows| ensures next.shows[i].id != next.shows[j].id {
        assert next.shows[i] == st.shows[i];
      }
    } else {
      var k :| 0 <= k < n && st.shows[k].id == s.id;
      assert next.shows[k] == st.shows[k] && next.shows[n] == s;
    }
  }

  /** Replacing one venue row of a consistent store by a row with the same id commits
      exactly when the columns accept the new row and no other venue has its name. */
  lemma ReplaceVenueConsistent(st: Store, i: nat, row: Venue)
    requires Consistent(st) && i < |st.venues| && row.id == st.venues[i].id
    ensures Admitted(st.(venues := st.venues[i := row])) <==>
      VenueAdmits(row) && forall k :: 0 <= k < |st.venues| && k != i ==> st.venues[k].name != row.name
  {
    var next := st.(venues := st.venues[i := row]);
    if !VenueAdmits(row) {
      assert next.venues[i] == row;
    } else if forall k :: 0 <= k < |st.venues| && k != i ==> st.venues[k].name != row.name {
      forall x | x in next.venues ensures VenueAdmits(x) {
        var j :| 0 <= j < |next.venues| && next.venues[j] == x;
        if j != i {
          assert x == st.venues[j] && st.venues[j] in st.venues;
        }
      }
      forall s | s in next.shows && s.venueId.Some?
        ensures HasVenue(next.venues, s.venueId.value)
      {
        var j :| 0 <= j < |st.venues| && st.venues[j].id == s.venueId.value;
        assert next.venues[j].id == st.venues[j].id;
      }
    } else {
      var k :| 0 <= k < |st.venues| && k != i && st.venues[k].name == row.name;
      if k < i {
        assert !VenueKeysUnique(next.venues) by { assert next.venues[k].name == next.venues[i].name; }
      } else {
        assert !VenueKeysUnique(next.venues) by { assert next.venues[i].name == next.venues[k].name; }
      }
    }
  }

  /** Replacing one artist row of a consistent store by a row with the same id commits
      exactly when the columns accept the new row and no other artist has its name. */
  lemma ReplaceArtistConsistent(st: Store, i: nat, row: Artist)
    requires Consistent(st) && i < |st.artists| && row.id == st.artists[i].id
    ensures Admitted(st.(artists := st.artists[i := row])) <==>
      ArtistAdmits(row) && forall k :: 0 <= k < |st.artists| && k != i ==> st.artists[k].name != row.name
  {
    var next := st.(artists := st.artists[i := row]);
    if !ArtistAdmits(row) {
      assert next.artists[i] == row;
    } else if forall k :: 0 <= k < |st.artists| && k != i ==> st.artists[k].name != row.name {
      forall x | x in next.artists ensures ArtistAdmits(x) {
        var j :| 0 <= j < |next.artists| && next.artists[j] == x;
        if j != i {
          assert x == st.artists[j] && st.artists[j] in st.artists;
        }
      }
      forall s | s in next.shows && s.artistId.Some?
        ensures HasArtist(next.artists, s.artistId.value)
      {
        var j :| 0 <= j < |st.artists| && st.artists[j].id == s.artistId.value;
        assert next.artists[j].id == st.artists[j].id;
      }
    } else {
      var k :| 0 <= k < |st.artists| && k != i && st.artists[k].name == row.name;
      if k < i {
        assert !ArtistKeysUnique(next.artists) by { assert next.artists[k].name == next.artists[i].name; }
      } else {
        assert !ArtistKeysUnique(next.artists) by { assert next.artists[i].name == next.artists[k].name; }
      }
    }
  }

  /** A commit of a consistent store plus one venue stores the existing rows as they are and
      the new row with its over-long values cut. */
  lemma {:induction false} StoredWithVenue(st: Store, v: Venue)
    requires RowsFit(st)
    ensures Stored(WithVenue(st, v)) == WithVenue(st, StoredVenue(v))
  {
    var r := Stored(WithVenue(st, v));
    forall i | 0 <= i < |st.venues| ensures r.venues[i] == st.venues[i] {
      assert st.venues[i] in st.venues;
    }
    forall i | 0 <= i < |st.artists| ensures r.artists[i] == st.artists[i] {
      assert st.artists[i] in st.artists;
    }
    assert r.venues == st.venues + [StoredVenue(v)];
    assert r.artists == st.artists;
  }

  /** The same for one new artist. */
  lemma {:induction false} StoredWithArtist(st: Store, a: Artist)
    requires RowsFit(st)
    ensures Stored(WithArtist(st, a)) == WithArtist(st, StoredArtist(a))
  {
    var r := Stored(WithArtist(st, a));
    forall i | 0 <= i < |st.venues| ensures r.venues[i] == st.venues[i] {
      assert st.venues[i] in st.venues;
    }
    forall i | 0 <= i < |st.artists| ensures r.artists[i] == st.artists[i] {
      assert st.artists[i] in st.artists;
    }
    assert r.venues == st.venues;
    assert r.artists == st.artists + [StoredArtist(a)];
  }

  /** A commit of a consistent store with one venue row replaced stores the other rows as
      they are and the new row with its over-long values cut. */
  lemma {:induction false} StoredReplaceVenue(st: Store, i: nat, row: Venue)
    requires RowsFit(st) && i < |st.venues|
    ensures Stored(st.(venues := st.venues[i := row])) == st.(venues := st.venues[i := StoredVenue(row)])
  {
    var r := Stored(st.(venues := st.venues[i := row]));
    forall j | 0 <= j < |st.venues| && j != i ensures r.venues[j] == st.venues[j] {
      assert st.venues[j] in st.venues;
    }
    forall j | 0 <= j < |st.artists| ensures r.artists[j] == st.artists[j] {
      assert st.artists[j] in st.artists;
    }
    assert r.venues == st.venues[i := StoredVenue(row)];
    assert r.artists == st.artists;
  }

  /** The same for one artist row replaced. */
  lemma {:induction false} StoredReplaceArtist(st: Store, i: nat, row: Artist)
    requires RowsFit(st) && i < |st.artists|
    ensures Stored(st.(artists := st.artists[i := row])) == st.(artists := st.artists[i := StoredArtist(row)])
  {
    var r := Stored(st.(artists := st.artists[i := row]));
    forall j | 0 <= j < |st.venues| ensures r.venues[j] == st.venues[j] {
      assert st.venues[j] in st.venues;
    }
    forall j | 0 <= j < |st.artists| && j != i ensures r.artists[j] == st.artists[j] {
      assert st.artists[j] in st.artists;
    }
    assert r.venues == st.venues;
    assert r.artists == st.artists[i := StoredArtist(row)];
  }

  /** An edit of a consistent store commits exactly when the columns accept the edited row
      and its name stays unique, and stores the edited row with its over-long values cut. */
  lemma {:induction false} EditVenueConsistent(st: Store, venueId: int, form: Form)
    requires Consistent(st) && EditVenue(st, venueId, form).Some?
    ensures var i := VenueIndex(st.venues, venueId).value;
      Admitted(EditVenue(st, venueId, form).value) <==>
      VenueAdmits(EditedVenue(st.venues[i], form).value) &&
      forall k :: 0 <= k < |st.venues| && k != i ==> st.venues[k].name != Get(form, "name").value
    ensures var i := VenueIndex(st.venues, venueId).value;
      Stored(EditVenue(st, venueId, form).value) == st.(venues := st.venues[i := StoredVenue(EditedVenue(st.venues[i], form).value)])
  {
    var i := VenueIndex(st.venues, venueId).value;
    var row := EditedVenue(st.venues[i], form).value;
    assert EditVenue(st, venueId, form).value == st.(venues := st.venues[i := row]);
    ReplaceVenueConsistent(st, i, row);
    StoredReplaceVenue(st, i, row);
  }

  /** An artist edit commits exactly when the columns accept the edited row and its name
      stays unique, and stores the edited row with its over-long values cut. */
  lemma {:induction false} EditArtistConsistent(st: Store, artistId: int, form: Form)
    requires Consistent(st) && EditArtist(st, artistId, form).Some?
    ensures var i := ArtistIndex(st.artists, artistId).value;
      Admitted(EditArtist(st, artistId, form).value) <==>
      ArtistAdmits(EditedArtist(st.artists[i], form).value) &&
      forall k :: 0 <= k < |st.artists| && k != i ==> st.artists[k].name != Get(form, "name").value
    ensures var i := ArtistIndex(st.artists, artistId).value;
      Stored(EditArtist(st, artistId, form).value) == st.(artists := st.artists[i := StoredArtist(EditedArtist(st.artists[i], form).value)])
  {
    var i := ArtistIndex(st.artists, artistId).value;
    var row := EditedArtist(st.artists[i], form).value;
    assert EditArtist(st, artistId, form).value == st.(artists := st.artists[i := row]);
    ReplaceArtistConsistent(st, i, row);
    StoredReplaceArtist(st, i, row);
  }

  /** Deleting a venue from a consistent store commits exactly when no show refers to it. */
  lemma {:induction false} DeleteVenueConsistent(st: Store, venueId: int)
    requires Consistent(st)
    ensures Consistent(DeleteVenue(st, venueId)) <==> forall s :: s in st.shows ==> s.venueId != Some(venueId)
  {
    var next := DeleteVenue(st, venueId);
    var kept := next.venues;
    FilterUnique(st.venues, venueId);
    if forall s :: s in st.shows ==> s.venueId != Some(venueId) {
      forall s | s in next.shows && s.venueId.Some?
        ensures HasVenue(next.venues, s.venueId.value)
      {
        var j :| 0 <= j < |st.venues| && st.venues[j].id == s.venueId.value;
        assert st.venues[j] in kept;
        var k :| 0 <= k < |kept| && kept[k] == st.venues[j];
      }
    } else {
      var s :| s in st.shows && s.venueId == Some(venueId);
      assert !HasVenue(kept, venueId) by {
        forall k | 0 <= k < |kept| ensures kept[k].id != venueId {
          assert kept[k] in kept;
        }
      }
    }
  }

  /** Filtering out one id keeps the remaining rows' ids and names unique. */
  lemma {:induction false} FilterUnique(venues: seq<Venue>, venueId: int)
    requires VenueKeysUnique(venues)
    ensures VenueKeysUnique(Filter(venues, IdIsNot(venueId)))
  {
    if venues != [] {
      var rest := venues[1..];
      assert VenueKeysUnique(rest) by {
        forall i, j | 0 <= i < j < |rest| ensures rest[i].id != rest[j].id && rest[i].name != rest[j].name {
          assert rest[i] == venues[i + 1] && rest[j] == venues[j + 1];
        }
      }
      FilterUnique(rest, venueId);
      var r := Filter(venues, IdIsNot(venueId));
      if venues[0].id != venueId {
        var tail := Filter(rest, IdIsNot(venueId));
        assert r == [venues[0]] + tail;
        forall j | 0 <= j < |tail| ensures venues[0].id != tail[j].id && venues[0].name != tail[j].name {
          assert tail[j] in rest;
          var k :| 0 <= k < |rest| && rest[k] == tail[j];
          assert rest[k] == venues[k + 1];
        }
      }
    }
  }

  /** The delete removes exactly the rows with the id and keeps the artists and shows;
      with unique ids that is one row when the id exists and none otherwise. */
  lemma {:induction false} DeleteRemovesOnlyThatVenue(st: Store, venueId: int)
    requires VenueKeysUnique(st.venues)
    ensures forall v :: v in DeleteVenue(st, venueId).venues <==> v in st.venues && v.id != venueId
    ensures DeleteVenue(st, venueId).artists == st.artists && DeleteVenue(st, venueId).shows == st.shows
    ensures |DeleteVenue(st, venueId).venues| == |st.venues| - (if HasVenue(st.venues, venueId) then 1 else 0)
  {
    DeleteCount(st.venues, venueId);
  }

  lemma {:induction false} DeleteCount(venues: seq<Venue>, venueId: int)
    requires VenueKeysUnique(venues)
    ensures |Filter(venues, IdIsNot(venueId))| == |venues| - (if HasVenue(venues, venueId) then 1 else 0)
  {
    if venues != [] {
      var rest := venues[1..];
      assert VenueKeysUnique(rest) by {
        forall i, j | 0 <= i < j < |rest| ensures rest[i].id != rest[j].id && rest[i].name != rest[j].name {
          assert rest[i] == venues[i + 1] && rest[j] == venues[j + 1];
        }
      }
      DeleteCount(rest, venueId);
      if venues[0].id == venueId {
        assert HasVenue(venues, venueId);
        assert !HasVenue(rest, venueId) by {
          forall k | 0 <= k < |rest| ensures rest[k].id != venueId {
            assert rest[k] == venues[k + 1];
          }
        }
      } else {
        assert HasVenue(venues, venueId) <==> HasVenue(rest, venueId) by {
          if HasVenue(venues, venueId) {
            var k :| 0 <= k < |venues| && venues[k].id == venueId;
            assert rest[k - 1].id == venueId;
          }
          if HasVenue(rest, venueId) {
            var k :| 0 <= k < |rest| && rest[k].id == venueId;
            assert venues[k + 1].id == venueId;
          }
        }
      }
    }
  }

  // ---------------------------------------------------------------------------
  // What an edit keeps and what it replaces
  // ---------------------------------------------------------------------------

  /** Nothing of the old row but its id survives an edit: two rows with the same id edited
      with the same form become the same row. */
  lemma EditIsFullReplace(v1: Venue, v2: Venue, form: Form)
    requires v1.id == v2.id
    ensures EditedVenue(v1, form) == EditedVenue(v2, form)
  {
  }

  /** An edit replaces only the edited venue row: the other venues, the artists and the shows
      are untouched, and the table keeps its size. */
  lemma EditVenueTouchesOneRow(st: Store, venueId: int, form: Form)
    requires EditVenue(st, venueId, form).Some?
    ensures var next := EditVenue(st, venueId, form).value;
      |next.venues| == |st.venues| && next.artists == st.artists && next.shows == st.shows &&
      forall k :: 0 <= k < |st.venues| && st.venues[k].id != venueId ==> next.venues[k] == st.venues[k]
  {
  }

  /** An edit of a venue whose id no row has, or that sets a NOT NULL column to NULL, rolls
      back whatever the rest of the store holds. */
  lemma EditVenueRejected(st: Store, venueId: int, form: Form)
    ensures EditVenue(st, venueId, form).None? <==> !HasVenue(st.venues, venueId) || !VenueFormComplete(form)
  {
  }

  /** The submitted flag is true exactly when its key is present, whatever value it carries. */
  lemma TalentFlagFollowsPresence(v: Venue, form: Form, value: seq<string>)
    requires VenueFormComplete(form)
    ensures EditedVenue(v, form["looking_for_talent" := value]).value.lookingForTalent
    ensures "looking_for_talent" !in form ==> !EditedVenue(v, form).value.lookingForTalent
  {
    var with := form["looking_for_talent" := value];
    assert Get(with, "name") == Get(form, "name");
    assert Get(with, "city") == Get(form, "city");
    assert Get(with, "state") == Get(form, "state");
    assert Get(with, "address") == Get(form, "address");
    assert Get(with, "phone") == Get(form, "phone");
    assert Get(with, "image_link") == Get(form, "image_link");
    assert Get(with, "seeking_description") == Get(form, "seeking_description");
  }

  /** Nothing of the old artist row but its id survives an edit. */
  lemma EditArtistIsFullReplace(a1: Artist, a2: Artist, form: Form)
    requires a1.id == a2.id
    ensures EditedArtist(a1, form) == EditedArtist(a2, form)
  {
  }

  /** An artist edit replaces only the edited artist row. */
  lemma EditArtistTouchesOneRow(st: Store, artistId: int, form: Form)
    requires EditArtist(st, artistId, form).Some?
    ensures var next := EditArtist(st, artistId, form).value;
      |next.artists| == |st.artists| && next.venues == st.venues && next.shows == st.shows &&
      forall k :: 0 <= k < |st.artists| && st.artists[k].id != artistId ==> next.artists[k] == st.artists[k]
  {
  }

  /** An artist edit with an unknown id, or that sets a NOT NULL column to NULL, rolls back
      whatever the rest of the store holds. */
  lemma EditArtistRejected(st: Store, artistId: int, form: Form)
    ensures EditArtist(st, artistId, form).None? <==> !HasArtist(st.artists, artistId) || !ArtistFormComplete(form)
  {
  }

  /** `looking_for_venue` is true exactly when its key is present, whatever value it carries. */
  lemma VenueFlagFollowsPresence(a: Artist, form: Form, value: seq<string>)
    requires ArtistFormComplete(form)
    ensures EditedArtist(a, form["looking_for_venue" := value]).value.lookingForVenue
    ensures "looking_for_venue" !in form ==> !EditedArtist(a, form).value.lookingForVenue
  {
    var with := form["looking_for_venue" := value];
    assert Get(with, "name") == Get(form, "name");
    assert Get(with, "city") == Get(form, "city");
    assert Get(with, "state") == Get(form, "state");
    assert Get(with, "phone") == Get(form, "phone");
    assert Get(with, "image_link") == Get(form, "image_link");
    assert Get(with, "seeking_description") == Get(form, "seeking_description");
  }
}

=== FILE: detail.dfy ===
/** The venue and artist pages: the row's details plus its shows split at `now` into past
    (`start_time <= now`) and upcoming (`start_time > now`). The show queries join Show with
    Venue and Artist, so a show whose venue or artist is unset is on neither page. */
module Detail {
  import opened Wrappers
  import opened Seqs
  import opened Models
  import VenuesIndex

  /** The `data` dictionary of `show_venue`. */
  datatype VenuePage = VenuePage(
    details: map<Key, Value>,
    pastShows: seq<ArtistShowRow>,
    upcomingShows: seq<ArtistShowRow>,
    pastShowsCount: nat,
    upcomingShowsCount: nat)

  /** The `data` dictionary of `show_artist`. */
  datatype ArtistPage = ArtistPage(
    details: map<Key, Value>,
    pastShows: seq<VenueShowRow>,
    upcomingShows: seq<VenueShowRow>,
    pastShowsCount: nat,
    upcomingShowsCount: nat)

  function JoinedAtVenue(st: Store, venueId: int): Show -> bool
  {
    (s: Show) => s.venueId == Some(venueId) && Resolved(st, s)
  }

  function JoinedForArtist(st: Store, artistId: int): Show -> bool
  {
    (s: Show) => s.artistId == Some(artistId) && Resolved(st, s)
  }

  /** The joined shows of one venue, in table order. */
  function VenueShows(st: Store, venueId: int): (r: seq<Show>)
    ensures forall s :: s in r <==> s in st.shows && s.venueId == Some(venueId) && Resolved(st, s)
  {
    Filter(st.shows, JoinedAtVenue(st, venueId))
  }

  /** The joined shows of one artist, in table order. */
  function ArtistShows(st: Store, artistId: int): (r: seq<Show>)
    ensures forall s :: s in r <==> s in st.shows && s.artistId == Some(artistId) && Resolved(st, s)
  {
    Filter(st.shows, JoinedForArtist(st, artistId))
  }

  /** `list(map(Show.artist_show, shows))`. */
  function ArtistRows(shows: seq<Show>, artists: seq<Artist>): (rows: seq<ArtistShowRow>)
    requires forall s :: s in shows ==> ArtistOf(s, artists).Some?
    ensures |rows| == |shows|
    ensures forall i :: 0 <= i < |shows| ==>
      shows[i].artistId == Some(rows[i].artistId) && rows[i].startTime == shows[i].startTime
  {
    seq(|shows|, i requires 0 <= i < |shows| => ArtistShow(shows[i], artists))
  }

  /** `list(map(Show.venue_show, shows))`. */
  function VenueRows(shows: seq<Show>, venues: seq<Venue>): (rows: seq<VenueShowRow>)
    requires forall s :: s in shows ==> VenueOf(s, venues).Some?
    ensures |rows| == |shows|
    ensures forall i :: 0 <= i < |shows| ==>
      shows[i].venueId == Some(rows[i].venueId) && rows[i].startTime == shows[i].startTime
  {
    seq(|shows|, i requires 0 <= i < |shows| => VenueShow(shows[i], venues))
  }

  /** `show_venue`: fails (indexing `[0]` of an empty result) exactly when no venue has the id. */
  function ShowVenue(st: Store, venueId: int, now: Timestamp): (page: Option<VenuePage>)
    ensures page.None? <==> !HasVenue(st.venues, venueId)
    ensures page.Some? ==> page.value.pastShowsCount == |page.value.pastShows|
    ensures page.Some? ==> page.value.upcomingShowsCount == |page.value.upcomingShows|
    ensures page.Some? ==> exists v :: v in st.venues && v.id == venueId && page.value.details == VenueDetails(v)
    ensures page.Some? ==> page.value.pastShows == ArtistRows(Filter(VenueShows(st, venueId), IsPast(now)), st.artists)
    ensures page.Some? ==> page.value.upcomingShows == ArtistRows(Filter(VenueShows(st, venueId), IsUpcoming(now)), st.artists)
  {
    match FindVenue(st.venues, venueId)
    case None => None
    case Some(v) =>
      var shows := VenueShows(st, venueId);
      var past := Filter(shows, IsPast(now));
      var upcoming := Filter(shows, IsUpcoming(now));
      Some(VenuePage(VenueDetails(v), ArtistRows(past, st.artists), ArtistRows(upcoming, st.artists), |past|, |upcoming|))
  }

  /** `show_artist`: fails exactly when no artist has the id. */
  function ShowArtist(st: Store, artistId: int, now: Timestamp): (page: Option<ArtistPage>)
    ensures page.None? <==> !HasArtist(st.artists, artistId)
    ensures page.Some? ==> page.value.pastShowsCount == |page.value.pastShows|
    ensures page.Some? ==> page.value.upcomingShowsCount == |page.value.upcomingShows|
    ensures page.Some? ==> exists a :: a in st.artists && a.id == artistId && page.value.details == ArtistDetails(a)
    ensures page.Some? ==> page.value.pastShows == VenueRows(Filter(ArtistShows(st, artistId), IsPast(now)), st.venues)
    ensures page.Some? ==> page.value.upcomingShows == VenueRows(Filter(ArtistShows(st, artistId), IsUpcoming(now)), st.venues)
  {
    match FindArtist(st.artists, artistId)
    case None => None
    case Some(a) =>
      var shows := ArtistShows(st, artistId);
      var past := Filter(shows, IsPast(now));
      var upcoming := Filter(shows, IsUpcoming(now));
      Some(ArtistPage(ArtistDetails(a), VenueRows(past, st.venues), VenueRows(upcoming, st.venues), |past|, |upcoming|))
  }

  /** Past and upcoming split a list of shows: each show lands in exactly one of them. */
  lemma {:induction false} PastUpcomingPartition(shows: seq<Show>, now: Timestamp)
    ensures multiset(Filter(shows, IsPast(now))) + multiset(Filter(shows, IsUpcoming(now))) == multiset(shows)
    ensures |Filter(shows, IsPast(now))| + |Filter(shows, IsUpcoming(now))| == |shows|
    ensures forall s :: s in Filter(shows, IsPast(now)) <==> s in shows && s.startTime <= now
    ensures forall s :: s in Filter(shows, IsUpcoming(now)) <==> s in shows && s.startTime > now
  {
    FilterPartition(shows, IsPast(now), IsUpcoming(now));
  }

  /** The venue page's two lists cover the venue's joined shows between them, and its
      counts add up to their number. */
  lemma {:induction false} VenuePageCoversShows(st: Store, venueId: int, now: Timestamp)
    requires HasVenue(st.venues, venueId)
    ensures var page := ShowVenue(st, venueId, now).value;
      page.pastShowsCount + page.upcomingShowsCount == |VenueShows(st, venueId)|
    ensures var page := ShowVenue(st, venueId, now).value;
      forall r :: r in page.pastShows ==> r.startTime <= now
    ensures var page := ShowVenue(st, venueId, now).value;
      forall r :: r in page.upcomingShows ==> r.startTime > now
  {
    var shows := VenueShows(st, venueId);
    PastUpcomingPartition(shows, now);
    var page := ShowVenue(st, venueId, now).value;
    forall r | r in page.pastShows ensures r.startTime <= now {
      VenuePageLists(st, venueId, now, r);
    }
    forall r | r in page.upcomingShows ensures r.startTime > now {
      VenuePageLists(st, venueId, now, r);
    }
  }

  /** The artist page's two lists cover the artist's joined shows between them. */
  lemma {:induction false} ArtistPageCoversShows(st: Store, artistId: int, now: Timestamp)
    requires HasArtist(st.artists, artistId)
    ensures var page := ShowArtist(st, artistId, now).value;
      page.pastShowsCount + page.upcomingShowsCount == |ArtistShows(st, artistId)|
    ensures var page := ShowArtist(st, artistId, now).value;
      forall r :: r in page.pastShows ==> r.startTime <= now
    ensures var page := ShowArtist(st, artistId, now).value;
      forall r :: r in page.upcomingShows ==> r.startTime > now
  {
    var shows := ArtistShows(st, artistId);
    PastUpcomingPartition(shows, now);
    var page := ShowArtist(st, artistId, now).value;
    forall r | r in page.pastShows ensures r.startTime <= now {
      ArtistPageLists(st, artistId, now, r);
    }
    forall r | r in page.upcomingShows ensures r.startTime > now {
      ArtistPageLists(st, artistId, now, r);
    }
  }

  /** A row is in `ArtistRows(shows, artists)` exactly when it is the `artist_show` of one of the shows. */
  lemma ArtistRowsMembers(shows: seq<Show>, artists: seq<Artist>, r: ArtistShowRow)
    requires forall s :: s in shows ==> ArtistOf(s, artists).Some?
    ensures r in ArtistRows(shows, artists) <==> exists s :: s in shows && r == ArtistShow(s, artists)
  {
    var rows := ArtistRows(shows, artists);
    if r in rows {
      var i :| 0 <= i < |rows| && rows[i] == r;
      assert shows[i] in shows;
    }
    if exists s :: s in shows && r == ArtistShow(s, artists) {
      var s :| s in shows && r == ArtistShow(s, artists);
      var i :| 0 <= i < |shows| && shows[i] == s;
      assert rows[i] == r;
    }
  }

  /** A row is in `VenueRows(shows, venues)` exactly when it is the `venue_show` of one of the shows. */
  lemma VenueRowsMembers(shows: seq<Show>, venues: seq<Venue>, r: VenueShowRow)
    requires forall s :: s in shows ==> VenueOf(s, venues).Some?
    ensures r in VenueRows(shows, venues) <==> exists s :: s in shows && r == VenueShow(s, venues)
  {
    var rows := VenueRows(shows, venues);
    if r in rows {
      var i :| 0 <= i < |rows| && rows[i] == r;
      assert shows[i] in shows;
    }
    if exists s :: s in shows && r == VenueShow(s, venues) {
      var s :| s in shows && r == VenueShow(s, venues);
      var i :| 0 <= i < |shows| && shows[i] == s;
      assert rows[i] == r;
    }
  }

  /** The venue page lists as past exactly the `artist_show` rows of the venue's joined shows
      that start no later than `now`, and as upcoming exactly those of the shows after it. */
  lemma {:induction false} VenuePageLists(st: Store, venueId: int, now: Timestamp, r: ArtistShowRow)
    requires HasVenue(st.venues, venueId)
    ensures r in ShowVenue(st, venueId, now).value.pastShows <==>
      exists s :: s in VenueShows(st, venueId) && s.startTime <= now && r == ArtistShow(s, st.artists)
    ensures r in ShowVenue(st, venueId, now).value.upcomingShows <==>
      exists s :: s in VenueShows(st, venueId) && s.startTime > now && r == ArtistShow(s, st.artists)
  {
    var shows := VenueShows(st, venueId);
    ArtistRowsMembers(Filter(shows, IsPast(now)), st.artists, r);
    ArtistRowsMembers(Filter(shows, IsUpcoming(now)), st.artists, r);
  }

  /** The artist page lists as past exactly the `venue_show` rows of the artist's joined shows
      that start no later than `now`, and as upcoming exactly those of the shows after it. */
  lemma {:induction false} ArtistPageLists(st: Store, artistId: int, now: Timestamp, r: VenueShowRow)
    requires HasArtist(st.artists, artistId)
    ensures r in ShowArtist(st, artistId, now).value.pastShows <==>
      exists s :: s in ArtistShows(st, artistId) && s.startTime <= now && r == VenueShow(s, st.venues)
    ensures r in ShowArtist(st, artistId, now).value.upcomingShows <==>
      exists s :: s in ArtistShows(st, artistId) && s.startTime > now && r == VenueShow(s, st.venues)
  {
    var shows := ArtistShows(st, artistId);
    VenueRowsMembers(Filter(shows, IsPast(now)), st.venues, r);
    VenueRowsMembers(Filter(shows, IsUpcoming(now)), st.venues, r);
  }

  /** A joined show no later than `now` is listed as past, and not as upcoming, on its venue's page. */
  lemma {:induction false} PastShowIsPastAtItsVenue(st: Store, s: Show, now: Timestamp)
    requires s in st.shows && Resolved(st, s) && s.startTime <= now
    ensures ShowVenue(st, s.venueId.value, now).Some?
    ensures ArtistShow(s, st.artists) in ShowVenue(st, s.venueId.value, now).value.pastShows
    ensures ArtistShow(s, st.artists) !in ShowVenue(st, s.venueId.value, now).value.upcomingShows
  {
    var venueId := s.venueId.value;
    assert s in VenueShows(st, venueId);
    VenuePageLists(st, venueId, now, ArtistShow(s, st.artists));
  }

  /** A joined show no later than `now` is listed as past, and not as upcoming, on its artist's page. */
  lemma {:induction false} PastShowIsPastForItsArtist(st: Store, s: Show, now: Timestamp)
    requires s in st.shows && Resolved(st, s) && s.startTime <= now
    ensures ShowArtist(st, s.artistId.value, now).Some?
    ensures VenueShow(s, st.venues) in ShowArtist(st, s.artistId.value, now).value.pastShows
    ensures VenueShow(s, st.venues) !in ShowArtist(st, s.artistId.value, now).value.upcomingShows
  {
    var artistId := s.artistId.value;
    assert s in ArtistShows(st, artistId);
    ArtistPageLists(st, artistId, now, VenueShow(s, st.venues));
  }

  /** A joined show after `now` is listed as upcoming, and not as past, on its venue's page. */
  lemma {:induction false} FutureShowIsUpcomingAtItsVenue(st: Store, s: Show, now: Timestamp)
    requires s in st.shows && Resolved(st, s) && s.startTime > now
    ensures ShowVenue(st, s.venueId.value, now).Some?
    ensures ArtistShow(s, st.artists) in ShowVenue(st, s.venueId.value, now).value.upcomingShows
    ensures ArtistShow(s, st.artists) !in ShowVenue(st, s.venueId.value, now).value.pastShows
  {
    var venueId := s.venueId.value;
    assert s in VenueShows(st, venueId);
    VenuePageLists(st, venueId, now, ArtistShow(s, st.artists));
  }

  /** A joined show after `now` is listed as upcoming, and not as past, on its artist's page. */
  lemma {:induction false} FutureShowIsUpcomingForItsArtist(st: Store, s: Show, now: Timestamp)
    requires s in st.shows && Resolved(st, s) && s.startTime > now
    ensures ShowArtist(st, s.artistId.value, now).Some?
    ensures VenueShow(s, st.venues) in ShowArtist(st, s.artistId.value, now).value.upcomingShows
    ensures VenueShow(s, st.venues) !in ShowArtist(st, s.artistId.value, now).value.pastShows
  {
    var artistId := s.artistId.value;
    assert s in ArtistShows(st, artistId);
    ArtistPageLists(st, artistId, now, VenueShow(s, st.venues));
  }

  /** The index's `num_upcoming_shows` counts shows without joining; in a consistent store
      where every show at the venue has an artist, it equals the venue page's
      `upcoming_shows_count`. */
  lemma {:induction false} IndexCountMatchesVenuePage(st: Store, v: Venue, now: Timestamp)
    requires Consistent(st) && v in st.venues
    requires forall s :: s in st.shows && s.venueId == Some(v.id) ==> s.artistId.Some?
    ensures ShowVenue(st, v.id, now).Some?
    ensures VenuesIndex.UpcomingCount(st.shows, v.id, now) == ShowVenue(st, v.id, now).value.upcomingShowsCount
  {
    var i :| 0 <= i < |st.venues| && st.venues[i] == v;
    assert HasVenue(st.venues, v.id);
    var joinedUpcoming := (s: Show) => JoinedAtVenue(st, v.id)(s) && IsUpcoming(now)(s);
    forall s | s in st.shows
      ensures VenuesIndex.UpcomingAt(v.id, now)(s) == joinedUpcoming(s)
    {
      if s.venueId == Some(v.id) {
        assert HasArtist(st.artists, s.artistId.value);
        assert VenueOf(s, st.venues).Some? && ArtistOf(s, st.artists).Some?;
        assert JoinedAtVenue(st, v.id)(s);
      } else {
        assert !JoinedAtVenue(st, v.id)(s);
      }
    }
    FilterCongruent(st.shows, VenuesIndex.UpcomingAt(v.id, now), joinedUpcoming);
    FilterFilter(st.shows, JoinedAtVenue(st, v.id), IsUpcoming(now), joinedUpcoming);
  }
}

=== FILE: models.dfy ===
/** The three tables of the booking directory (Venue, Artist, Show), their constraints,
    and the projections the records offer to the views. */
module Models {
  import opened Wrappers

  /** An instant on the database's clock; how it is displayed is not modelled. */
  type Timestamp = int

  /** Column defaults of `seeking_description`. */
  const TalentSeekingPlaceholder: string := "Please update your talent seeking description here."
  const VenueSeekingPlaceholder: string := "Please update your venue seeking description here."

  /** A stored Venue row. NOT NULL columns are plain values; nullable ones are options. */
  datatype Venue = Venue(
    id: int,
    name: string,
    city: string,
    state: string,
    address: string,
    phone: string,
    imageLink: string,
    facebookLink: Option<string>,
    genres: seq<string>,
    websiteLink: Option<string>,
    lookingForTalent: bool,
    seekingDescription: string)

  /** A stored Artist row. */
  datatype Artist = Artist(
    id: int,
    name: string,
    city: string,
    state: string,
    phone: string,
    genres: seq<string>,
    imageLink: string,
    facebookLink: Option<string>,
    websiteLink: Option<string>,
    lookingForVenue: bool,
    seekingDescription: string)

  /** A stored Show row: one artist playing one venue at one time. Both references are nullable. */
  datatype Show = Show(id: int, startTime: Timestamp, venueId: Option<int>, artistId: Option<int>)

  /** A show is past at `now` when it starts no later than `now`. */
  function IsPast(now: Timestamp): Show -> bool
  {
    (s: Show) => s.startTime <= now
  }

  /** A show is upcoming at `now` when it starts strictly after `now`. */
  function IsUpcoming(now: Timestamp): Show -> bool
  {
    (s: Show) => s.startTime > now
  }

  /** The whole database: the three tables, each in its scan order. */
  datatype Store = Store(venues: seq<Venue>, artists: seq<Artist>, shows: seq<Show>)

  // ---------------------------------------------------------------------------
  // Columns by name, and the `details` dictionaries
  // ---------------------------------------------------------------------------

  /** A value as a projection hands it to a template. */
  datatype Value = Null | Int(i: int) | Text(s: string) | Texts(l: seq<string>) | Flag(b: bool)

  function Nullable(o: Option<string>): Value
  {
    match o
    case None => Null
    case Some(s) => Text(s)
  }

  /** Column names and dictionary keys; each constructor stands for the snake_case name
      (`ImageLink` for `image_link`, `Website` for the `details` key `website`, ...). */
  datatype Key =
    | Id | Name | City | State | Address | Phone | ImageLink | FacebookLink | Genres
    | WebsiteLink | LookingForTalent | LookingForVenue | SeekingDescription | Website

  const VenueColumns: set<Key> := {
    Id, Name, City, State, Address, Phone, ImageLink, FacebookLink, Genres, WebsiteLink,
    LookingForTalent, SeekingDescription }

  const ArtistColumns: set<Key> := {
    Id, Name, City, State, Phone, Genres, ImageLink, FacebookLink, WebsiteLink,
    LookingForVenue, SeekingDescription }

  /** The value of a Venue column, looked up by the column's name (the ORM attribute). */
  function VenueColumn(v: Venue, column: Key): (r: Option<Value>)
    ensures r.Some? <==> column in VenueColumns
  {
    match column
    case Id => Some(Int(v.id))
    case Name => Some(Text(v.name))
    case City => Some(Text(v.city))
    case State => Some(Text(v.state))
    case Address => Some(Text(v.address))
    case Phone => Some(Text(v.phone))
    case ImageLink => Some(Text(v.imageLink))
    case FacebookLink => Some(Nullable(v.facebookLink))
    case Genres => Some(Texts(v.genres))
    case WebsiteLink => Some(Nullable(v.websiteLink))
    case LookingForTalent => Some(Flag(v.lookingForTalent))
    case SeekingDescription => Some(Text(v.seekingDescription))
    case _ => None
  }

  /** The value of an Artist column, looked up by the column's name. */
  function ArtistColumn(a: Artist, column: Key): (r: Option<Value>)
    ensures r.Some? <==> column in ArtistColumns
  {
    match column
    case Id => Some(Int(a.id))
    case Name => Some(Text(a.name))
    case City => Some(Text(a.city))
    case State => Some(Text(a.state))
    case Phone => Some(Text(a.phone))
    case Genres => Some(Texts(a.genres))
    case ImageLink => Some(Text(a.imageLink))
    case FacebookLink => Some(Nullable(a.facebookLink))
    case WebsiteLink => Some(Nullable(a.websiteLink))
    case LookingForVenue => Some(Flag(a.lookingForVenue))
    case SeekingDescription => Some(Text(a.seekingDescription))
    case _ => None
  }

  /** The column a `details` key is read from: `website` comes from `website_link`,
      every other key from the column of the same name. */
  function DetailSource(key: Key): Key
  {
    if key == Website then WebsiteLink else key
  }

  /** `Venue.details`: every column of the row, with `website_link` shown as `website`. */
  function VenueDetails(v: Venue): (d: map<Key, Value>)
    ensures d.Keys == VenueColumns - {WebsiteLink} + {Website}
  {
    map[
      Id := Int(v.id),
      Name := Text(v.name),
      Genres := Texts(v.genres),
      Address := Text(v.address),
      City := Text(v.city),
      State := Text(v.state),
      Phone := Text(v.phone),
      Website := Nullable(v.websiteLink),
      FacebookLink := Nullable(v.facebookLink),
      LookingForTalent := Flag(v.lookingForTalent),
      SeekingDescription := Text(v.seekingDescription),
      ImageLink := Text(v.imageLink)]
  }

  /** `Artist.details`: every column of the row, with `website_link` shown as `website`. */
  function ArtistDetails(a: Artist): (d: map<Key, Value>)
    ensures d.Keys == ArtistColumns - {WebsiteLink} + {Website}
  {
    map[
      Id := Int(a.id),
      Name := Text(a.name),
      Genres := Texts(a.genres),
      City := Text(a.city),
      State := Text(a.state),
      Phone := Text(a.phone),
      Website := Nullable(a.websiteLink),
      FacebookLink := Nullable(a.facebookLink),
      LookingForVenue := Flag(a.lookingForVenue),
      SeekingDescription := Text(a.seekingDescription),
      ImageLink := Text(a.imageLink)]
  }

  /** In `Venue.details`, `website` holds `website_link` and every other key the column
      of the same name. */
  lemma VenueDetailsFromColumns(v: Venue)
    ensures forall key :: key in VenueDetails(v) ==> VenueColumn(v, DetailSource(key)) == Some(VenueDetails(v)[key])
  {
    var d := VenueDetails(v);
    forall key | key in d ensures VenueColumn(v, DetailSource(key)) == Some(d[key]) {
      if key == Website {
        assert d[Website] == Nullable(v.websiteLink);
      } else if key == Id {
        assert d[Id] == Int(v.id);
      } else if key == Name {
        assert d[Name] == Text(v.name);
      } else if key == Genres {
        assert d[Genres] == Texts(v.genres);
      } else if key == Address {
        assert d[Address] == Text(v.address);
      } else if key == City {
        assert d[City] == Text(v.city);
      } else if key == State {
        assert d[State] == Text(v.state);
      } else if key == Phone {
        assert d[Phone] == Text(v.phone);
      } else if key == FacebookLink {
        assert d[FacebookLink] == Nullable(v.facebookLink);
      } else if key == LookingForTalent {
        assert d[LookingForTalent] == Flag(v.lookingForTalent);
      } else if key == SeekingDescription {
        assert d[SeekingDescription] == Text(v.seekingDescription);
      } else {
        assert key == ImageLink;
        assert d[ImageLink] == Text(v.imageLink);
      }
    }
  }

  /** Replacing one key of a key set by a key not in it keeps the number of keys. */
  lemma ReplaceKeepsSize<T>(s: set<T>, out: T, in_: T)
    requires out in s && in_ !in s
    ensures |s - {out} + {in_}| == |s|
  {
    assert |s - {out}| == |s| - 1;
  }

  /** `Venue.details` has exactly twelve keys. */
  lemma VenueDetailsSize(v: Venue)
    ensures |VenueDetails(v)| == 12
  {
    var d := VenueDetails(v);
    assert |VenueColumns| == 12;
    ReplaceKeepsSize(VenueColumns, WebsiteLink, Website);
    assert |d| == |d.Keys|;
  }

  /** In `Artist.details`, `website` holds `website_link` and every other key the column
      of the same name. */
  lemma ArtistDetailsFromColumns(a: Artist)
    ensures forall key :: key in ArtistDetails(a) ==> ArtistColumn(a, DetailSource(key)) == Some(ArtistDetails(a)[key])
  {
    var d := ArtistDetails(a);
    forall key | key in d ensures ArtistColumn(a, DetailSource(key)) == Some(d[key]) {
      if key == Website {
        assert d[Website] == Nullable(a.websiteLink);
      } else if key == Id {
        assert d[Id] == Int(a.id);
      } else if key == Name {
        assert d[Name] == Text(a.name);
      } else if key == Genres {
        assert d[Genres] == Texts(a.genres);
      } else if key == City {
        assert d[City] == Text(a.city);
      } else if key == State {
        assert d[State] == Text(a.state);
      } else if key == Phone {
        assert d[Phone] == Text(a.phone);
      } else if key == FacebookLink {
        assert d[FacebookLink] == Nullable(a.facebookLink);
      } else if key == LookingForVenue {
        assert d[LookingForVenue] == Flag(a.lookingForVenue);
      } else if key == SeekingDescription {
        assert d[SeekingDescription] == Text(a.seekingDescription);
      } else {
        assert key == ImageLink;
        assert d[ImageLink] == Text(a.imageLink);
      }
    }
  }

  /** `Artist.details` has exactly eleven keys. */
  lemma ArtistDetailsSize(a: Artist)
    ensures |ArtistDetails(a)| == 11
  {
    var d := ArtistDetails(a);
    assert |ArtistColumns| == 11;
    ReplaceKeepsSize(ArtistColumns, WebsiteLink, Website);
    assert |d| == |d.Keys|;
  }

  /** An artist's details have the shape of a venue's without `address`, and with
      `looking_for_venue` in place of `looking_for_talent`. */
  lemma DetailsShapes(v: Venue, a: Artist)
    ensures ArtistDetails(a).Keys == VenueDetails(v).Keys - {Address, LookingForTalent} + {LookingForVenue}
  {
  }

  // ---------------------------------------------------------------------------
  // References between tables, and the show projections
  // ---------------------------------------------------------------------------

  predicate HasVenue(venues: seq<Venue>, id: int)
  {
    exists i | 0 <= i < |venues| :: venues[i].id == id
  }

  predicate HasArtist(artists: seq<Artist>, id: int)
  {
    exists i | 0 <= i < |artists| :: artists[i].id == id
  }

  /** The position of the first venue row with the id: `filter_by(id=...).all()[0]`. */
  function VenueIndex(venues: seq<Venue>, id: int): (r: Option<nat>)
    ensures r.None? <==> !HasVenue(venues, id)
    ensures r.Some? ==> r.value < |venues| && venues[r.value].id == id
    ensures r.Some? ==> forall k :: 0 <= k < r.value ==> venues[k].id != id
  {
    if venues == [] then None
    else if venues[0].id == id then Some(0)
    else
      match VenueIndex(venues[1..], id)
      case None =>
        assert !HasVenue(venues, id) by {
          forall i | 0 < i < |venues| ensures venues[i].id != id {
            assert venues[i] == venues[1..][i - 1];
          }
        }
        None
      case Some(i) =>
        assert venues[1..][i] == venues[i + 1];
        Some(i + 1)
  }

  /** The position of the first artist row with the id. */
  function ArtistIndex(artists: seq<Artist>, id: int): (r: Option<nat>)
    ensures r.None? <==> !HasArtist(artists, id)
    ensures r.Some? ==> r.value < |artists| && artists[r.value].id == id
    ensures r.Some? ==> forall k :: 0 <= k < r.value ==> artists[k].id != id
  {
    if artists == [] then None
    else if artists[0].id == id then Some(0)
    else
      match ArtistIndex(artists[1..], id)
      case None =>
        assert !HasArtist(artists, id) by {
          forall i | 0 < i < |artists| ensures artists[i].id != id {
            assert artists[i] == artists[1..][i - 1];
          }
        }
        None
      case Some(i) =>
        assert artists[1..][i] == artists[i + 1];
        Some(i + 1)
  }

  /** The first venue row with the given id: `filter_by(id=...).all()[0]`. */
  function FindVenue(venues: seq<Venue>, id: int): (r: Option<Venue>)
    ensures r.Some? <==> HasVenue(venues, id)
    ensures r.Some? ==> r.value in venues && r.value.id == id
  {
    match VenueIndex(venues, id)
    case None => None
    case Some(i) => Some(venues[i])
  }

  /** The first artist row with the given id. */
  function FindArtist(artists: seq<Artist>, id: int): (r: Option<Artist>)
    ensures r.Some? <==> HasArtist(artists, id)
    ensures r.Some? ==> r.value in artists && r.value.id == id
  {
    match ArtistIndex(artists, id)
    case None => None
    case Some(i) => Some(artists[i])
  }

  /** `show.venue`: the venue row the show's `venue_id` names, if it is set and exists. */
  function VenueOf(s: Show, venues: seq<Venue>): Option<Venue>
  {
    if s.venueId.None? then None else FindVenue(venues, s.venueId.value)
  }

  /** `show.artist`: the artist row the show's `artist_id` names, if it is set and exists. */
  function ArtistOf(s: Show, artists: seq<Artist>): Option<Artist>
  {
    if s.artistId.None? then None else FindArtist(artists, s.artistId.value)
  }

  /** The venue and the artist of the show both exist: the show survives an inner join
      with Venue and Artist, and `show.venue.name` and `show.artist.name` can be read. */
  predicate Resolved(st: Store, s: Show)
  {
    VenueOf(s, st.venues).Some? && ArtistOf(s, st.artists).Some?
  }

  /** The dictionary `Show.artist_show` builds. */
  datatype ArtistShowRow = ArtistShowRow(artistId: int, artistName: string, artistImageLink: string, startTime: Timestamp)

  /** The dictionary `Show.venue_show` builds. */
  datatype VenueShowRow = VenueShowRow(venueId: int, venueName: string, venueImageLink: string, startTime: Timestamp)

  /** `Show.artist_show`: the show's own artist id and time, with the name and image of the
      artist that id refers to. Dereferencing `show.artist` needs that artist to exist. */
  function ArtistShow(s: Show, artists: seq<Artist>): (r: ArtistShowRow)
    requires ArtistOf(s, artists).Some?
    ensures s.artistId == Some(r.artistId) && r.startTime == s.startTime
    ensures exists a :: a in artists && a.id == r.artistId && a.name == r.artistName && a.imageLink == r.artistImageLink
  {
    var a := ArtistOf(s, artists).value;
    ArtistShowRow(s.artistId.value, a.name, a.imageLink, s.startTime)
  }

  /** `Show.venue_show`: the show's own venue id and time, with the name and image of the
      venue that id refers to. */
  function VenueShow(s: Show, venues: seq<Venue>): (r: VenueShowRow)
    requires VenueOf(s, venues).Some?
    ensures s.venueId == Some(r.venueId) && r.startTime == s.startTime
    ensures exists v :: v in venues && v.id == r.venueId && v.name == r.venueName && v.imageLink == r.venueImageLink
  {
    var v := VenueOf(s, venues).value;
    VenueShowRow(s.venueId.value, v.name, v.imageLink, s.startTime)
  }

  // ---------------------------------------------------------------------------
  // Table constraints
  // ---------------------------------------------------------------------------

  predicate VenueKeysUnique(vs: seq<Venue>)
  {
    forall i, j | 0 <= i < j < |vs| :: vs[i].id != vs[j].id && vs[i].name != vs[j].name
  }

  predicate ArtistKeysUnique(as_: seq<Artist>)
  {
    forall i, j | 0 <= i < j < |as_| :: as_[i].id != as_[j].id && as_[i].name != as_[j].name
  }

  predicate ShowIdsUnique(ss: seq<Show>)
  {
    forall i, j | 0 <= i < j < |ss| :: ss[i].id != ss[j].id
  }

  /** Every set show reference names an existing row (the two foreign keys). */
  predicate ShowRefsResolve(st: Store)
  {
    forall s | s in st.shows ::
      (s.venueId.Some? ==> HasVenue(st.venues, s.venueId.value)) &&
      (s.artistId.Some? ==> HasArtist(st.artists, s.artistId.value))
  }

  /** The declared lengths of the bounded text columns, `String(120)` and `String(500)`. */
  const ShortText: nat := 120
  const LongText: nat := 500

  /** A text fits a column of `width` characters when it is no longer than that; this is
      what every stored value satisfies. */
  predicate FitsIn(s: Option<string>, width: nat)
  {
    s.None? || |s.value| <= width
  }

  /** A text is accepted by a `varchar(width)` column when every character past the
      width is a space (trivially so for a text that fits); any other over-long text is
      refused. */
  predicate Admits(s: string, width: nat)
  {
    forall k | width <= k < |s| :: s[k] == ' '
  }

  predicate AdmitsIn(s: Option<string>, width: nat)
  {
    s.None? || Admits(s.value, width)
  }

  /** The value a `varchar(width)` column stores for an accepted text: the excess spaces
      are cut off, and a text that fits is stored as it is. */
  function Clip(s: string, width: nat): (r: string)
    ensures |r| <= width && r <= s
    ensures |r| == if |s| <= width then |s| else width
    ensures |s| <= width ==> r == s
    ensures Admits(s, width) ==> forall k | |r| <= k < |s| :: s[k] == ' '
  {
    if |s| <= width then s else s[..width]
  }

  function ClipIn(s: Option<string>, width: nat): (r: Option<string>)
    ensures FitsIn(r, width) && r.None? == s.None?
    ensures s.Some? ==> r == Some(Clip(s.value, width))
    ensures FitsIn(s, width) ==> r == s
  {
    match s
    case None => None
    case Some(t) => Some(Clip(t, width))
  }

  /** Every bounded column of the venue row fits its declared length; `name` and the
      `genres` entries are unbounded. */
  predicate VenueFits(v: Venue)
  {
    |v.city| <= ShortText && |v.state| <= ShortText && |v.address| <= ShortText &&
    |v.phone| <= ShortText && |v.imageLink| <= LongText && FitsIn(v.facebookLink, ShortText) &&
    FitsIn(v.websiteLink, ShortText) && |v.seekingDescription| <= LongText
  }

  /** Every bounded column of the artist row fits its declared length, each `genres` entry
      included; `name` is unbounded. */
  predicate ArtistFits(a: Artist)
  {
    |a.city| <= ShortText && |a.state| <= ShortText && |a.phone| <= ShortText &&
    (forall g :: g in a.genres ==> |g| <= ShortText) &&
    |a.imageLink| <= LongText && FitsIn(a.facebookLink, ShortText) &&
    FitsIn(a.websiteLink, ShortText) && |a.seekingDescription| <= LongText
  }

  /** Every bounded column of the venue row is accepted by its declared length. */
  predicate VenueAdmits(v: Venue)
  {
    Admits(v.city, ShortText) && Admits(v.state, ShortText) && Admits(v.address, ShortText) &&
    Admits(v.phone, ShortText) && Admits(v.imageLink, LongText) && AdmitsIn(v.facebookLink, ShortText) &&
    AdmitsIn(v.websiteLink, ShortText) && Admits(v.seekingDescription, LongText)
  }

  /** Every bounded column of the artist row is accepted, each `genres` entry included. */
  predicate ArtistAdmits(a: Artist)
  {
    Admits(a.city, ShortText) && Admits(a.state, ShortText) && Admits(a.phone, ShortText) &&
    (forall g :: g in a.genres ==> Admits(g, ShortText)) &&
    Admits(a.imageLink, LongText) && AdmitsIn(a.facebookLink, ShortText) &&
    AdmitsIn(a.websiteLink, ShortText) && Admits(a.seekingDescription, LongText)
  }

  /** The venue row as the database stores it: each bounded column clipped. */
  function StoredVenue(v: Venue): (r: Venue)
    ensures VenueFits(r)
    ensures r.id == v.id && r.name == v.name && r.genres == v.genres &&
      r.lookingForTalent == v.lookingForTalent
    ensures r.city == Clip(v.city, ShortText) && r.state == Clip(v.state, ShortText) &&
      r.address == Clip(v.address, ShortText) && r.phone == Clip(v.phone, ShortText) &&
      r.imageLink == Clip(v.imageLink, LongText) && r.facebookLink == ClipIn(v.facebookLink, ShortText) &&
      r.websiteLink == ClipIn(v.websiteLink, ShortText) &&
      r.seekingDescription == Clip(v.seekingDescription, LongText)
    ensures VenueFits(v) ==> r == v
  {
    v.(city := Clip(v.city, ShortText), state := Clip(v.state, ShortText),
       address := Clip(v.address, ShortText), phone := Clip(v.phone, ShortText),
       imageLink := Clip(v.imageLink, LongText), facebookLink := ClipIn(v.facebookLink, ShortText),
       websiteLink := ClipIn(v.websiteLink, ShortText),
       seekingDescription := Clip(v.seekingDescription, LongText))
  }

  /** Each entry of a `varchar(120)[]` column clipped. */
  function ClipAll(gs: seq<string>, width: nat): (r: seq<string>)
    ensures |r| == |gs| && forall i | 0 <= i < |gs| :: r[i] == Clip(gs[i], width)
    ensures forall g :: g in r ==> |g| <= width
  {
    seq(|gs|, i requires 0 <= i < |gs| => Clip(gs[i], width))
  }

  /** The artist row as the database stores it: each bounded column and genre clipped. */
  function StoredArtist(a: Artist): (r: Artist)
    ensures ArtistFits(r)
    ensures r.id == a.id && r.name == a.name && r.lookingForVenue == a.lookingForVenue
    ensures r.city == Clip(a.city, ShortText) && r.state == Clip(a.state, ShortText) &&
      r.phone == Clip(a.phone, ShortText) && r.genres == ClipAll(a.genres, ShortText) &&
      r.imageLink == Clip(a.imageLink, LongText) && r.facebookLink == ClipIn(a.facebookLink, ShortText) &&
      r.websiteLink == ClipIn(a.websiteLink, ShortText) &&
      r.seekingDescription == Clip(a.seekingDescription, LongText)
    ensures ArtistFits(a) ==> r == a
  {
    var genres := ClipAll(a.genres, ShortText);
    assert ArtistFits(a) ==> genres == a.genres by {
      if ArtistFits(a) {
        forall i | 0 <= i < |a.genres| ensures genres[i] == a.genres[i] {
          assert a.genres[i] in a.genres;
        }
      }
    }
    a.(city := Clip(a.city, ShortText), state := Clip(a.state, ShortText),
       phone := Clip(a.phone, ShortText), genres := genres,
       imageLink := Clip(a.imageLink, LongText), facebookLink := ClipIn(a.facebookLink, ShortText),
       websiteLink := ClipIn(a.websiteLink, ShortText),
       seekingDescription := Clip(a.seekingDescription, LongText))
  }

  predicate RowsFit(st: Store)
  {
    (forall v :: v in st.venues ==> VenueFits(v)) && (forall a :: a in st.artists ==> ArtistFits(a))
  }

  predicate RowsAdmitted(st: Store)
  {
    (forall v :: v in st.venues ==> VenueAdmits(v)) && (forall a :: a in st.artists ==> ArtistAdmits(a))
  }

  /** The keys and references the database enforces: unique primary keys, unique venue
      and artist names and resolving foreign keys. NOT NULL is carried by the row types. */
  predicate KeysHold(st: Store)
  {
    VenueKeysUnique(st.venues) && ArtistKeysUnique(st.artists) && ShowIdsUnique(st.shows) &&
    ShowRefsResolve(st)
  }

  /** What every committed state satisfies: the keys hold and every value fits its column. */
  predicate Consistent(st: Store)
  {
    KeysHold(st) && RowsFit(st)
  }

  /** What a commit accepts: the keys hold and every value is accepted by its column. */
  predicate Admitted(st: Store)
  {
    KeysHold(st) && RowsAdmitted(st)
  }

  /** The tables as a commit stores them: every venue and artist row clipped. */
  function Stored(st: Store): (r: Store)
    ensures |r.venues| == |st.venues| && |r.artists| == |st.artists| && r.shows == st.shows
    ensures forall i | 0 <= i < |st.venues| :: r.venues[i] == StoredVenue(st.venues[i])
    ensures forall i | 0 <= i < |st.artists| :: r.artists[i] == StoredArtist(st.artists[i])
  {
    Store(seq(|st.venues|, i requires 0 <= i < |st.venues| => StoredVenue(st.venues[i])),
          seq(|st.artists|, i requires 0 <= i < |st.artists| => StoredArtist(st.artists[i])),
          st.shows)
  }

  /** A city of "X" and 120 spaces is accepted by its `String(120)` column and stored with
      119 spaces, while a city of 121 letters is refused. */
  lemma SpacePaddedValueIsCut()
    ensures var padded := "X" + seq(120, _ => ' ');
      Admits(padded, ShortText) && Clip(padded, ShortText) == "X" + seq(119, _ => ' ')
    ensures !Admits(seq(121, _ => 'X'), ShortText)
  {
    var padded := "X" + seq(120, _ => ' ');
    assert Clip(padded, ShortText) == "X" + seq(119, _ => ' ');
    assert seq(121, _ => 'X')[120] == 'X';
  }

  /** A store whose values fit is committed as it is: the commit accepts it exactly when
      its keys hold, and stores it unchanged. */
  lemma {:induction false} FittingStoreIsStoredAsIs(st: Store)
    requires RowsFit(st)
    ensures Admitted(st) <==> Consistent(st)
    ensures Stored(st) == st
  {
    var r := Stored(st);
    forall i | 0 <= i < |st.venues| ensures r.venues[i] == st.venues[i] {
      assert st.venues[i] in st.venues;
    }
    forall i | 0 <= i < |st.artists| ensures r.artists[i] == st.artists[i] {
      assert st.artists[i] in st.artists;
    }
    assert r.venues == st.venues && r.artists == st.artists;
  }

  /** Whatever a commit accepts, it stores as a consistent state: clipping keeps every id,
      name and reference, and leaves every value within its column. */
  lemma {:induction false} AdmittedIsStoredConsistent(st: Store)
    requires Admitted(st)
    ensures Consistent(Stored(st))
  {
    StoredRowsFit(st);
    StoredKeepsKeys(st);
  }

  /** Every stored row fits its columns. */
  lemma {:induction false} StoredRowsFit(st: Store)
    ensures RowsFit(Stored(st))
  {
    var r := Stored(st);
    forall v | v in r.venues ensures VenueFits(v) {
      var i :| 0 <= i < |r.venues| && r.venues[i] == v;
    }
    forall a | a in r.artists ensures ArtistFits(a) {
      var i :| 0 <= i < |r.artists| && r.artists[i] == a;
    }
  }

  /** Clipping keeps every id, name and reference, so the keys that hold keep holding. */
  lemma {:induction false} StoredKeepsKeys(st: Store)
    requires KeysHold(st)
    ensures KeysHold(Stored(st))
  {
    var r := Stored(st);
    forall i, j | 0 <= i < j < |r.venues|
      ensures r.venues[i].id != r.venues[j].id && r.venues[i].name != r.venues[j].name
    {
      assert r.venues[i].id == st.venues[i].id && r.venues[i].name == st.venues[i].name;
      assert r.venues[j].id == st.venues[j].id && r.venues[j].name == st.venues[j].name;
    }
    forall i, j | 0 <= i < j < |r.artists|
      ensures r.artists[i].id != r.artists[j].id && r.artists[i].name != r.artists[j].name
    {
      assert r.artists[i].id == st.artists[i].id && r.artists[i].name == st.artists[i].name;
      assert r.artists[j].id == st.artists[j].id && r.artists[j].name == st.artists[j].name;
    }
    forall s | s in r.shows
      ensures (s.venueId.Some? ==> HasVenue(r.venues, s.venueId.value)) &&
        (s.artistId.Some? ==> HasArtist(r.artists, s.artistId.value))
    {
      if s.venueId.Some? {
        var i :| 0 <= i < |st.venues| && st.venues[i].id == s.venueId.value;
        assert r.venues[i].id == s.venueId.value;
      }
      if s.artistId.Some? {
        var i :| 0 <= i < |st.artists| && st.artists[i].id == s.artistId.value;
        assert r.artists[i].id == s.artistId.value;
      }
    }
  }

  // ---------------------------------------------------------------------------
  // Inserting a new row
  // ---------------------------------------------------------------------------

  /** A Venue object before it is flushed: each column is set to a value or left unset. */
  datatype VenueDraft = VenueDraft(
    name: Option<string>,
    city: Option<string>,
    state: Option<string>,
    address: Option<string>,
    phone: Option<string>,
    imageLink: Option<string>,
    facebookLink: Option<string>,
    genres: Option<seq<string>>,
    websiteLink: Option<string>,
    lookingForTalent: Option<bool>,
    seekingDescription: Option<string>)

  /** An Artist object before it is flushed. */
  datatype ArtistDraft = ArtistDraft(
    name: Option<string>,
    city: Option<string>,
    state: Option<string>,
    phone: Option<string>,
    genres: Option<seq<string>>,
    imageLink: Option<string>,
    facebookLink: Option<string>,
    websiteLink: Option<string>,
    lookingForVenue: Option<bool>,
    seekingDescription: Option<string>)

  /** The value a draft sets for a column, if it sets one. */
  function VenueDraftColumn(d: VenueDraft, column: Key): Option<Value>
  {
    match column
    case Name => if d.name.Some? then Some(Text(d.name.value)) else None
    case City => if d.city.Some? then Some(Text(d.city.value)) else None
    case State => if d.state.Some? then Some(Text(d.state.value)) else None
    case Address => if d.address.Some? then Some(Text(d.address.value)) else None
    case Phone => if d.phone.Some? then Some(Text(d.phone.value)) else None
    case ImageLink => if d.imageLink.Some? then Some(Text(d.imageLink.value)) else None
    case FacebookLink => if d.facebookLink.Some? then Some(Text(d.facebookLink.value)) else None
    case Genres => if d.genres.Some? then Some(Texts(d.genres.value)) else None
    case WebsiteLink => if d.websiteLink.Some? then Some(Text(d.websiteLink.value)) else None
    case LookingForTalent => if d.lookingForTalent.Some? then Some(Flag(d.lookingForTalent.value)) else None
    case SeekingDescription => if d.seekingDescription.Some? then Some(Text(d.seekingDescription.value)) else None
    case _ => None
  }

  /** The value a draft sets for a column, if it sets one. */
  function ArtistDraftColumn(d: ArtistDraft, column: Key): Option<Value>
  {
    match column
    case Name => if d.name.Some? then Some(Text(d.name.value)) else None
    case City => if d.city.Some? then Some(Text(d.city.value)) else None
    case State => if d.state.Some? then Some(Text(d.state.value)) else None
    case Phone => if d.phone.Some? then Some(Text(d.phone.value)) else None
    case Genres => if d.genres.Some? then Some(Texts(d.genres.value)) else None
    case ImageLink => if d.imageLink.Some? then Some(Text(d.imageLink.value)) else None
    case FacebookLink => if d.facebookLink.Some? then Some(Text(d.facebookLink.value)) else None
    case WebsiteLink => if d.websiteLink.Some? then Some(Text(d.websiteLink.value)) else None
    case LookingForVenue => if d.lookingForVenue.Some? then Some(Flag(d.lookingForVenue.value)) else None
    case SeekingDescription => if d.seekingDescription.Some? then Some(Text(d.seekingDescription.value)) else None
    case _ => None
  }

  predicate VenueRequiredSet(d: VenueDraft)
  {
    d.name.Some? && d.city.Some? && d.state.Some? && d.address.Some? && d.phone.Some? &&
    d.imageLink.Some? && d.genres.Some?
  }

  predicate ArtistRequiredSet(d: ArtistDraft)
  {
    d.name.Some? && d.city.Some? && d.state.Some? && d.phone.Some? && d.imageLink.Some? &&
    d.genres.Some?
  }

  /** The row an INSERT of the draft stores under the given id. Unset columns take their
      defaults (`looking_for_talent` false, `seeking_description` the placeholder, nullable
      columns NULL); a NOT NULL column without a default left unset makes the insert fail. */
  function InsertedVenue(id: int, d: VenueDraft): (r: Option<Venue>)
    ensures r.Some? <==> VenueRequiredSet(d)
    ensures r.Some? ==> r.value.id == id
    ensures r.Some? ==> forall c :: c in VenueColumns && VenueDraftColumn(d, c).Some? ==>
      VenueColumn(r.value, c) == VenueDraftColumn(d, c)
    ensures r.Some? && d.lookingForTalent.None? ==> !r.value.lookingForTalent
    ensures r.Some? && d.seekingDescription.None? ==> r.value.seekingDescription == TalentSeekingPlaceholder
    ensures r.Some? && d.facebookLink.None? ==> r.value.facebookLink.None?
    ensures r.Some? && d.websiteLink.None? ==> r.value.websiteLink.None?
  {
    if !VenueRequiredSet(d) then None
    else
      Some(Venue(
        id, d.name.value, d.city.value, d.state.value, d.address.value, d.phone.value,
        d.imageLink.value, d.facebookLink, d.genres.value, d.websiteLink,
        if d.lookingForTalent.Some? then d.lookingForTalent.value else false,
        if d.seekingDescription.Some? then d.seekingDescription.value else TalentSeekingPlaceholder))
  }

  /** The row an INSERT of the draft stores under the given id (defaults as for venues,
      with `looking_for_venue` and the venue-seeking placeholder). */
  function InsertedArtist(id: int, d: ArtistDraft): (r: Option<Artist>)
    ensures r.Some? <==> ArtistRequiredSet(d)
    ensures r.Some? ==> r.value.id == id
    ensures r.Some? ==> forall c :: c in ArtistColumns && ArtistDraftColumn(d, c).Some? ==>
      ArtistColumn(r.value, c) == ArtistDraftColumn(d, c)
    ensures r.Some? && d.lookingForVenue.None? ==> !r.value.lookingForVenue
    ensures r.Some? && d.seekingDescription.None? ==> r.value.seekingDescription == VenueSeekingPlaceholder
    ensures r.Some? && d.facebookLink.None? ==> r.value.facebookLink.None?
    ensures r.Some? && d.websiteLink.None? ==> r.value.websiteLink.None?
  {
    if !ArtistRequiredSet(d) then None
    else
      Some(Artist(
        id, d.name.value, d.city.value, d.state.value, d.phone.value, d.genres.value,
        d.imageLink.value, d.facebookLink, d.websiteLink,
        if d.lookingForVenue.Some? then d.lookingForVenue.value else false,
        if d.seekingDescription.Some? then d.seekingDescription.value else VenueSeekingPlaceholder))
  }
}

=== FILE: request.dfy ===
/** The submitted form of a request: each key with the values submitted under it, in order. */
module Request {
  import opened Wrappers

  type Form = map<string, seq<string>>

  /** `request.form.get(key)`: the first value submitted under `key`, if there is one. */
  function Get(form: Form, key: string): Option<string>
  {
    if key in form && |form[key]| > 0 then Some(form[key][0]) else None
  }

  /** `request.form.get(key, default)`. */
  function GetOr(form: Form, key: string, default: string): string
  {
    if key in form && |form[key]| > 0 then form[key][0] else default
  }

  /** `request.form.getlist(key)`: every value submitted under `key`, none if it is absent. */
  function GetList(form: Form, key: string): seq<string>
  {
    if key in form then form[key] else []
  }
}

=== FILE: search.dfy ===
/** The two search handlers: the rows whose name contains the submitted term, ignoring
    case, in query order, each reported with its id, name and a count of upcoming shows. */
module Search {
  import opened Seqs
  import opened Text
  import opened Models
  import opened Request

  /** One entry of `response['data']`. */
  datatype SearchEntry = SearchEntry(id: int, name: string, numUpcomingShows: nat)

  /** The `response` dictionary: `count` and `data`. */
  datatype SearchResponse = SearchResponse(count: nat, data: seq<SearchEntry>)

  /** `request.form.get('search_term', '')`. */
  function SearchTerm(form: Form): string
  {
    GetOr(form, "search_term", "")
  }

  function VenueNameMatches(term: string): Venue -> bool
  {
    (v: Venue) => ContainsIgnoringCase(v.name, term)
  }

  function ArtistNameMatches(term: string): Artist -> bool
  {
    (a: Artist) => ContainsIgnoringCase(a.name, term)
  }

  /** `Venue.query.filter(Venue.name.ilike('%' + term + '%')).all()`. */
  function MatchingVenues(venues: seq<Venue>, term: string): (r: seq<Venue>)
    ensures forall v :: v in r <==> v in venues && ContainsIgnoringCase(v.name, term)
  {
    Filter(venues, VenueNameMatches(term))
  }

  /** `Artist.query.filter(Artist.name.ilike('%' + term + '%')).all()`. */
  function MatchingArtists(artists: seq<Artist>, term: string): (r: seq<Artist>)
    ensures forall a :: a in r <==> a in artists && ContainsIgnoringCase(a.name, term)
  {
    Filter(artists, ArtistNameMatches(term))
  }

  /** The `search_venues` handler over the venue table. `upcomingCount` stands for the
      per-venue count of the joined upcoming-shows query, whose value this model leaves open. */
  method SearchVenues(venues: seq<Venue>, form: Form, upcomingCount: int -> nat) returns (response: SearchResponse)
    ensures response.count == |response.data| == |MatchingVenues(venues, SearchTerm(form))|
    ensures forall i :: 0 <= i < |response.data| ==>
      var v := MatchingVenues(venues, SearchTerm(form))[i];
      response.data[i] == SearchEntry(v.id, v.name, upcomingCount(v.id))
  {
    var found := MatchingVenues(venues, SearchTerm(form));
    var data: seq<SearchEntry> := [];
    for i := 0 to |found|
      invariant |data| == i
      invariant forall k :: 0 <= k < i ==> data[k] == SearchEntry(found[k].id, found[k].name, upcomingCount(found[k].id))
    {
      data := data + [SearchEntry(found[i].id, found[i].name, upcomingCount(found[i].id))];
    }
    response := SearchResponse(|found|, data);
  }

  /** The `search_artists` handler over the artist table. */
  method SearchArtists(artists: seq<Artist>, form: Form, upcomingCount: int -> nat) returns (response: SearchResponse)
    ensures response.count == |response.data| == |MatchingArtists(artists, SearchTerm(form))|
    ensures forall i :: 0 <= i < |response.data| ==>
      var a := MatchingArtists(artists, SearchTerm(form))[i];
      response.data[i] == SearchEntry(a.id, a.name, upcomingCount(a.id))
  {
    var found := MatchingArtists(artists, SearchTerm(form));
    var data: seq<SearchEntry> := [];
    for i := 0 to |found|
      invariant |data| == i
      invariant forall k :: 0 <= k < i ==> data[k] == SearchEntry(found[k].id, found[k].name, upcomingCount(found[k].id))
    {
      data := data + [SearchEntry(found[i].id, found[i].name, upcomingCount(found[i].id))];
    }
    response := SearchResponse(|found|, data);
  }

  /** A form without a usable `search_term` searches for the empty term. */
  lemma MissingTermIsEmpty(form: Form)
    requires "search_term" !in form || form["search_term"] == []
    ensures SearchTerm(form) == ""
  {
  }

  /** The empty term returns every venue, in table order. */
  lemma {:induction false} EmptyTermFindsAllVenues(venues: seq<Venue>)
    ensures MatchingVenues(venues, "") == venues
  {
    forall v | v in venues ensures VenueNameMatches("")(v) {
      EmptyTermMatchesEveryName(v.name);
    }
    FilterKeepsAll(venues, VenueNameMatches(""));
  }

  /** The empty term returns every artist, in table order. */
  lemma {:induction false} EmptyTermFindsAllArtists(artists: seq<Artist>)
    ensures MatchingArtists(artists, "") == artists
  {
    forall a | a in artists ensures ArtistNameMatches("")(a) {
      EmptyTermMatchesEveryName(a.name);
    }
    FilterKeepsAll(artists, ArtistNameMatches(""));
  }

  /** The venues the term matches and those it does not split the table between them. */
  lemma VenueSearchSplitsTable(venues: seq<Venue>, term: string)
    ensures |MatchingVenues(venues, term)| + |Filter(venues, (v: Venue) => !ContainsIgnoringCase(v.name, term))| == |venues|
  {
    FilterPartition(venues, VenueNameMatches(term), (v: Venue) => !ContainsIgnoringCase(v.name, term));
  }

  /** The artists the term matches and those it does not split the table between them. */
  lemma ArtistSearchSplitsTable(artists: seq<Artist>, term: string)
    ensures |MatchingArtists(artists, term)| + |Filter(artists, (a: Artist) => !ContainsIgnoringCase(a.name, term))| == |artists|
  {
    FilterPartition(artists, ArtistNameMatches(term), (a: Artist) => !ContainsIgnoringCase(a.name, term));
  }

  /** Searching is insensitive to the case in which the term is typed. */
  lemma VenueSearchIgnoresTermCase(venues: seq<Venue>, term: string)
    ensures MatchingVenues(venues, term) == MatchingVenues(venues, LowerStr(term))
  {
    forall v | v in venues ensures VenueNameMatches(term)(v) == VenueNameMatches(LowerStr(term))(v) {
      CaseOfEitherSideIsIgnored(v.name, term);
      CaseOfEitherSideIsIgnored(v.name, LowerStr(term));
      LowerStrIdempotent(term);
    }
    FilterCongruent(venues, VenueNameMatches(term), VenueNameMatches(LowerStr(term)));
  }

  /** Searching artists is insensitive to the case in which the term is typed. */
  lemma ArtistSearchIgnoresTermCase(artists: seq<Artist>, term: string)
    ensures MatchingArtists(artists, term) == MatchingArtists(artists, LowerStr(term))
  {
    forall a | a in artists ensures ArtistNameMatches(term)(a) == ArtistNameMatches(LowerStr(term))(a) {
      CaseOfEitherSideIsIgnored(a.name, term);
      CaseOfEitherSideIsIgnored(a.name, LowerStr(term));
      LowerStrIdempotent(term);
    }
    FilterCongruent(artists, ArtistNameMatches(term), ArtistNameMatches(LowerStr(term)));
  }
}

=== FILE: seqs.dfy ===
/** Option, and the sequence filter that every database query of the application reduces to. */
module Wrappers {

  datatype Option<+T> = None | Some(value: T)
}

module Seqs {

  /** The elements of `s` that satisfy `p`, in the order of `s` (a `WHERE` clause). */
  function Filter<T(!new)>(s: seq<T>, p: T -> bool): (r: seq<T>)
    ensures |r| <= |s|
    ensures forall x :: x in r <==> x in s && p(x)
  {
    if s == [] then []
    else if p(s[0]) then [s[0]] + Filter(s[1..], p)
    else Filter(s[1..], p)
  }

  /** A filter keeps everything exactly when every element satisfies it. */
  lemma {:induction false} FilterKeepsAll<T(!new)>(s: seq<T>, p: T -> bool)
    requires forall x :: x in s ==> p(x)
    ensures Filter(s, p) == s
  {
    if s != [] {
      FilterKeepsAll(s[1..], p);
    }
  }

  /** Two complementary filters split a sequence: together they hold each element
      exactly as often as the sequence does, and no element lands in both. */
  lemma {:induction false} FilterPartition<T(!new)>(s: seq<T>, p: T -> bool, q: T -> bool)
    requires forall x :: q(x) == !p(x)
    ensures multiset(Filter(s, p)) + multiset(Filter(s, q)) == multiset(s)
    ensures |Filter(s, p)| + |Filter(s, q)| == |s|
    ensures forall x :: x in Filter(s, p) ==> x !in Filter(s, q)
  {
    if s != [] {
      FilterPartition(s[1..], p, q);
      assert s == [s[0]] + s[1..];
      assert multiset(s) == multiset{s[0]} + multiset(s[1..]);
    }
  }

  /** Filtering by `p` and then by `q` is filtering by both. */
  lemma {:induction false} FilterFilter<T(!new)>(s: seq<T>, p: T -> bool, q: T -> bool, pq: T -> bool)
    requires forall x :: pq(x) == (p(x) && q(x))
    ensures Filter(Filter(s, p), q) == Filter(s, pq)
  {
    if s != [] {
      FilterFilter(s[1..], p, q, pq);
    }
  }

  /** Filters whose conditions agree on every element of `s` select the same elements. */
  lemma {:induction false} FilterCongruent<T(!new)>(s: seq<T>, p: T -> bool, q: T -> bool)
    requires forall x :: x in s ==> p(x) == q(x)
    ensures Filter(s, p) == Filter(s, q)
  {
    if s != [] {
      FilterCongruent(s[1..], p, q);
    }
  }

  /** Taking the first element out of `xs` and the same element out of a reordering `ys`
      leaves reorderings of each other. */
  lemma RemoveMatching<T>(xs: seq<T>, ys: seq<T>, j: nat)
    requires multiset(xs) == multiset(ys) && xs != [] && j < |ys| && ys[j] == xs[0]
    ensures multiset(xs[1..]) == multiset(ys[..j] + ys[j + 1..])
  {
    assert xs == [xs[0]] + xs[1..];
    assert ys == ys[..j] + [ys[j]] + ys[j + 1..];
    assert multiset(xs) == multiset{xs[0]} + multiset(xs[1..]);
    assert multiset(ys) == multiset(ys[..j]) + multiset{ys[j]} + multiset(ys[j + 1..]);
    var rest := ys[..j] + ys[j + 1..];
    assert multiset(rest) == multiset(ys[..j]) + multiset(ys[j + 1..]);
    forall e ensures multiset(xs[1..])[e] == multiset(rest)[e] {
      assert multiset(xs)[e] == multiset(ys)[e];
    }
  }
}

=== FILE: shows_listing.dfy ===
/** The shows page: every show, latest first, with the names of its venue and artist. */
module ShowsListing {
  import opened Wrappers
  import opened Models
  import opened Seqs

  /** One entry of the page's `data` list. */
  datatype ListedShow = ListedShow(
    venueId: int,
    venueName: string,
    artistId: int,
    artistName: string,
    artistImageLink: string,
    startTime: Timestamp)

  /** Latest first: no show starts after the one listed just before it. */
  predicate Descending(shows: seq<Show>)
  {
    forall i :: 0 < i < |shows| ==> shows[i - 1].startTime >= shows[i].startTime
  }

  /** In a latest-first list, no show starts after any show listed before it. */
  lemma {:induction false} DescendingPairwise(shows: seq<Show>)
    requires Descending(shows)
    ensures forall i, j :: 0 <= i < j < |shows| ==> shows[i].startTime >= shows[j].startTime
  {
    if shows != [] {
      DescendingPairwise(shows[1..]);
      forall i, j | 0 <= i < j < |shows| ensures shows[i].startTime >= shows[j].startTime {
        if i > 0 {
          assert shows[i] == shows[1..][i - 1] && shows[j] == shows[1..][j - 1];
        } else if j > 1 {
          assert shows[1] == shows[1..][0] && shows[j] == shows[1..][j - 1];
        }
      }
    }
  }

  /** What follows the first show of a latest-first list is latest first. */
  lemma DescendingTail(shows: seq<Show>)
    requires Descending(shows) && shows != []
    ensures Descending(shows[1..])
  {
    forall i | 0 < i < |shows| - 1 ensures shows[1..][i - 1].startTime >= shows[1..][i].startTime {
      assert shows[1..][i - 1] == shows[i] && shows[1..][i] == shows[i + 1];
    }
  }

  /** A show that starts no earlier than the head of a latest-first list can go in front of it. */
  lemma DescendingCons(s: Show, shows: seq<Show>)
    requires Descending(shows) && (shows == [] || s.startTime >= shows[0].startTime)
    ensures Descending([s] + shows)
  {
    forall i | 0 < i < |shows| + 1 ensures ([s] + shows)[i - 1].startTime >= ([s] + shows)[i].startTime {
      if i > 1 {
        assert ([s] + shows)[i - 1] == shows[i - 2] && ([s] + shows)[i] == shows[i - 1];
      }
    }
  }

  /** `s` placed into a list that is latest first, keeping it latest first. */
  function Insert(s: Show, sorted: seq<Show>): (r: seq<Show>)
    requires Descending(sorted)
    ensures |r| == |sorted| + 1
    ensures Descending(r)
    ensures r[0] == s || (sorted != [] && r[0] == sorted[0])
    ensures multiset(r) == multiset(sorted) + multiset{s}
  {
    if sorted == [] then [s]
    else if s.startTime >= sorted[0].startTime then
      DescendingCons(s, sorted);
      [s] + sorted
    else
      DescendingTail(sorted);
      var rest := Insert(s, sorted[1..]);
      assert sorted == [sorted[0]] + sorted[1..];
      DescendingCons(sorted[0], rest);
      [sorted[0]] + rest
  }

  /** `ORDER BY start_time DESC`: the same shows, latest first. Shows that start at the same
      time come out in one fixed order here; the database promises none. */
  function ByStartDescending(shows: seq<Show>): (r: seq<Show>)
    ensures Descending(r)
    ensures multiset(r) == multiset(shows)
    ensures forall s :: s in r <==> s in shows
  {
    if shows == [] then []
    else
      assert shows == [shows[0]] + shows[1..];
      var r := Insert(shows[0], ByStartDescending(shows[1..]));
      SameShows(r, shows);
      r
  }

  /** The entry the handler builds for one resolved show. */
  function Listed(st: Store, s: Show): (r: ListedShow)
    requires Resolved(st, s)
    ensures s.venueId == Some(r.venueId) && s.artistId == Some(r.artistId) && r.startTime == s.startTime
    ensures exists v :: v in st.venues && v.id == r.venueId && v.name == r.venueName
    ensures exists a :: a in st.artists && a.id == r.artistId && a.name == r.artistName && a.imageLink == r.artistImageLink
  {
    var v := VenueOf(s, st.venues).value;
    var a := ArtistOf(s, st.artists).value;
    ListedShow(s.venueId.value, v.name, s.artistId.value, a.name, a.imageLink, s.startTime)
  }

  /** The entries built for `shows`, one per show and in the same order. */
  function ListedAll(st: Store, shows: seq<Show>): (r: seq<ListedShow>)
    requires forall s :: s in shows ==> Resolved(st, s)
    ensures |r| == |shows|
  {
    seq(|shows|, i requires 0 <= i < |shows| => Listed(st, shows[i]))
  }

  /** Listing the shows one after the other is listing the first ones, then the rest. */
  lemma {:induction false} ListedAllAppend(st: Store, xs: seq<Show>, ys: seq<Show>)
    requires forall s :: s in xs ==> Resolved(st, s)
    requires forall s :: s in ys ==> Resolved(st, s)
    ensures ListedAll(st, xs + ys) == ListedAll(st, xs) + ListedAll(st, ys)
  {
    var whole, front, back := ListedAll(st, xs + ys), ListedAll(st, xs), ListedAll(st, ys);
    forall i | 0 <= i < |xs| ensures whole[i] == front[i] {
      assert (xs + ys)[i] == xs[i];
    }
    forall i | 0 <= i < |ys| ensures whole[|xs| + i] == back[i] {
      assert (xs + ys)[|xs| + i] == ys[i];
    }
    assert whole == front + back;
  }

  /** The listing holds each entry as often as the shows it comes from: it depends only on which
      shows there are, counted with repetition, and not on their order. */
  lemma {:induction false} ListedAllOfReordering(st: Store, xs: seq<Show>, ys: seq<Show>)
    requires multiset(xs) == multiset(ys)
    requires forall s :: s in xs ==> Resolved(st, s)
    ensures forall s :: s in ys ==> Resolved(st, s)
    ensures multiset(ListedAll(st, xs)) == multiset(ListedAll(st, ys))
    decreases |xs|
  {
    SameShows(xs, ys);
    if xs != [] {
      var x := xs[0];
      assert x in multiset(ys);
      var j :| 0 <= j < |ys| && ys[j] == x;
      var before, after := ys[..j], ys[j + 1..];
      RemoveMatching(xs, ys, j);
      assert ys == before + [x] + after;
      assert xs == [x] + xs[1..];
      ListedAllOfReordering(st, xs[1..], before + after);
      ListedAllAppend(st, [x], xs[1..]);
      ListedAllAppend(st, before + [x], after);
      ListedAllAppend(st, before, [x]);
      ListedAllAppend(st, before, after);
    }
  }

  /** The entry is the one built for some show of the store. */
  predicate ListsAShow(st: Store, row: ListedShow)
  {
    exists s :: s in st.shows && Resolved(st, s) && row == Listed(st, s)
  }

  /** The same shows in another order hold the same members and are as many. */
  lemma SameShows(shows: seq<Show>, other: seq<Show>)
    requires multiset(shows) == multiset(other)
    ensures |shows| == |other|
    ensures forall s :: s in shows <==> s in other
  {
    assert |multiset(shows)| == |multiset(other)|;
    forall s ensures s in shows <==> s in other {
      assert s in shows <==> s in multiset(shows);
      assert s in other <==> s in multiset(other);
    }
  }

  /** What the listing built from a latest-first reordering of all the shows holds. */
  lemma ListingOfReordering(st: Store, shows: seq<Show>, data: seq<ListedShow>)
    requires multiset(shows) == multiset(st.shows) && Descending(shows)
    requires |data| == |shows|
    requires forall k :: 0 <= k < |shows| ==> Resolved(st, shows[k]) && data[k] == Listed(st, shows[k])
    ensures !exists s :: s in st.shows && !Resolved(st, s)
    ensures |data| == |st.shows|
    ensures forall s :: s in st.shows ==> Listed(st, s) in data
    ensures forall i, j :: 0 <= i < j < |data| ==> data[i].startTime >= data[j].startTime
    ensures forall i :: 0 <= i < |data| ==> ListsAShow(st, data[i])
    ensures data == ListedAll(st, shows)
    ensures multiset(data) == multiset(ListedAll(st, st.shows))
  {
    SameShows(shows, st.shows);
    ListedAllOfReordering(st, shows, st.shows);
    forall s | s in st.shows ensures Resolved(st, s) && Listed(st, s) in data {
      var k :| 0 <= k < |shows| && shows[k] == s;
      assert data[k] == Listed(st, s);
    }
    DescendingPairwise(shows);
    forall i, j | 0 <= i < j < |data| ensures data[i].startTime >= data[j].startTime {
      assert shows[i].startTime >= shows[j].startTime;
    }
    forall i | 0 <= i < |data| ensures ListsAShow(st, data[i]) {
      var s := shows[i];
      assert s in st.shows && Resolved(st, s) && data[i] == Listed(st, s);
      assert ListsAShow(st, data[i]);
    }
  }

  /** The `shows` handler. It fails (`show.venue` or `show.artist` is `None`) exactly when some
      show's venue or artist is unset or missing. */
  method Shows(st: Store) returns (listing: Option<seq<ListedShow>>)
    ensures listing.None? <==> exists s :: s in st.shows && !Resolved(st, s)
    ensures listing.Some? ==> |listing.value| == |st.shows|
    ensures listing.Some? ==> forall s :: s in st.shows ==> Listed(st, s) in listing.value
    ensures listing.Some? ==> forall i, j :: 0 <= i < j < |listing.value| ==>
      listing.value[i].startTime >= listing.value[j].startTime
    ensures listing.Some? ==> forall i :: 0 <= i < |listing.value| ==>
      ListsAShow(st, listing.value[i])
    ensures listing.Some? ==> listing.value == ListedAll(st, ByStartDescending(st.shows))
    ensures listing.Some? ==> multiset(listing.value) == multiset(ListedAll(st, st.shows))
  {
    var shows := ByStartDescending(st.shows);
    var data: seq<ListedShow> := [];
    for i := 0 to |shows|
      invariant |data| == i
      invariant forall k :: 0 <= k < i ==> Resolved(st, shows[k]) && data[k] == Listed(st, shows[k])
    {
      var show := shows[i];
      if !Resolved(st, show) {
        assert show in shows && show in st.shows;
        return None;
      }
      data := data + [Listed(st, show)];
    }
    ListingOfReordering(st, shows, data);
    return Some(data);
  }
}

=== FILE: text.dfy ===
/** Case-insensitive substring matching, the meaning given here to
    `name ILIKE '%' || term || '%'` (ASCII case folding, no wildcards inside `term`). */
module Text {

  /** ASCII lower-casing of one character; every other character is left alone. */
  function Lower(c: char): char
  {
    if 'A' <= c <= 'Z' then (c as int + ('a' as int - 'A' as int)) as char else c
  }

  function LowerStr(s: string): string
  {
    seq(|s|, i requires 0 <= i < |s| => Lower(s[i]))
  }

  /** `part` occurs in `whole` starting at index `at`. */
  predicate OccursAt(part: string, whole: string, at: int)
  {
    0 <= at && at + |part| <= |whole| && whole[at..at + |part|] == part
  }

  predicate IsSubstring(part: string, whole: string)
  {
    exists at | 0 <= at <= |whole| - |part| :: OccursAt(part, whole, at)
  }

  /** `term` occurs in `name` when both are read case-insensitively. */
  predicate ContainsIgnoringCase(name: string, term: string)
  {
    IsSubstring(LowerStr(term), LowerStr(name))
  }

  /** Lower-casing twice is lower-casing once. */
  lemma {:induction false} LowerStrIdempotent(s: string)
    ensures LowerStr(LowerStr(s)) == LowerStr(s)
  {
    var once := LowerStr(s);
    var twice := LowerStr(once);
    forall i | 0 <= i < |s| ensures twice[i] == once[i] {
      assert once[i] == Lower(s[i]);
    }
  }

  /** The empty term occurs in every name, so an empty search matches every row. */
  lemma EmptyTermMatchesEveryName(name: string)
    ensures ContainsIgnoringCase(name, "")
  {
    assert OccursAt(LowerStr(""), LowerStr(name), 0);
  }

  /** Matching does not depend on the case in which either side is written. */
  lemma CaseOfEitherSideIsIgnored(name: string, term: string)
    ensures ContainsIgnoringCase(name, term) == ContainsIgnoringCase(LowerStr(name), LowerStr(term))
  {
    LowerStrIdempotent(name);
    LowerStrIdempotent(term);
  }

  /** A case-insensitive match found character by character. */
  lemma MatchAt(name: string, term: string, at: nat)
    requires at + |term| <= |name|
    requires forall k :: 0 <= k < |term| ==> Lower(name[at + k]) == Lower(term[k])
    ensures ContainsIgnoringCase(name, term)
  {
    var whole, part := LowerStr(name), LowerStr(term);
    assert whole[at..at + |part|] == part;
    assert OccursAt(part, whole, at);
  }

  /** The searches the venue handler documents: "Hop" and "Music" find "The Musical Hop",
      and "Music" finds "Park Square Live Music & Coffee". */
  lemma DocumentedVenueSearches()
    ensures ContainsIgnoringCase("The Musical Hop", "Hop")
    ensures ContainsIgnoringCase("The Musical Hop", "Music")
    ensures ContainsIgnoringCase("Park Square Live Music & Coffee", "Music")
  {
    MatchAt("The Musical Hop", "Hop", 12);
    MatchAt("The Musical Hop", "Music", 4);
    MatchAt("Park Square Live Music & Coffee", "Music", 17);
  }

  /** The searches the artist handler documents: "A" finds "Guns N Petals",
      "Matt Quevado" and "The Wild Sax Band", and "band" finds "The Wild Sax Band". */
  lemma DocumentedArtistSearches()
    ensures ContainsIgnoringCase("Guns N Petals", "A")
    ensures ContainsIgnoringCase("Matt Quevado", "A")
    ensures ContainsIgnoringCase("The Wild Sax Band", "A")
    ensures ContainsIgnoringCase("The Wild Sax Band", "band")
  {
    MatchAt("Guns N Petals", "A", 10);
    MatchAt("Matt Quevado", "A", 1);
    MatchAt("The Wild Sax Band", "A", 10);
    MatchAt("The Wild Sax Band", "band", 13);
  }
}

=== FILE: venues_index.dfy ===
/** The venues index page: venues, in the order of the query that sorts them by city,
    grouped into areas; a venue joins the last area exactly when its `city + state`
    string equals the previous venue's. */
module VenuesIndex {
  import opened Wrappers
  import opened Seqs
  import opened Models

  /** One entry of an area's `venues` list. */
  datatype IndexVenue = IndexVenue(id: int, name: string, numUpcomingShows: nat)

  /** One area of the page: a city, a state and the venues listed under them. */
  datatype Area = Area(city: string, state: string, venues: seq<IndexVenue>)

  /** The grouping key the handler compares: the plain concatenation of city and state. */
  function VenueKey(v: Venue): string
  {
    v.city + v.state
  }

  function AreaKey(a: Area): string
  {
    a.city + a.state
  }

  /** The condition of the index's show query: at this venue and strictly after `now`. */
  function UpcomingAt(venueId: int, now: Timestamp): Show -> bool
  {
    (s: Show) => s.venueId == Some(venueId) && IsUpcoming(now)(s)
  }

  /** The number of shows at the venue that start strictly after `now`. */
  function UpcomingCount(shows: seq<Show>, venueId: int, now: Timestamp): nat
  {
    |Filter(shows, UpcomingAt(venueId, now))|
  }

  function Entry(v: Venue, shows: seq<Show>, now: Timestamp): IndexVenue
  {
    IndexVenue(v.id, v.name, UpcomingCount(shows, v.id, now))
  }

  /** The entry of every queried venue, in query order. */
  function Entries(queried: seq<Venue>, shows: seq<Show>, now: Timestamp): seq<IndexVenue>
  {
    seq(|queried|, i requires 0 <= i < |queried| => Entry(queried[i], shows, now))
  }

  /** All areas' `venues` lists, concatenated in order. */
  function Flatten(areas: seq<Area>): seq<IndexVenue>
  {
    if areas == [] then [] else Flatten(areas[..|areas| - 1]) + areas[|areas| - 1].venues
  }

  /** `areas` with `e` appended to the last area's list. */
  function AddToLast(areas: seq<Area>, e: IndexVenue): seq<Area>
    requires areas != []
  {
    var last := areas[|areas| - 1];
    areas[..|areas| - 1] + [last.(venues := last.venues + [e])]
  }

  /** The areas the handler has built once it has walked `queried`: the last venue either
      extends the last area (its key equals the previous venue's) or opens a new area
      with its own city and state. */
  function Grouped(queried: seq<Venue>, shows: seq<Show>, now: Timestamp): (areas: seq<Area>)
    ensures |areas| <= |queried|
    ensures (areas == []) == (queried == [])
  {
    if queried == [] then []
    else
      var before := Grouped(queried[..|queried| - 1], shows, now);
      var v := queried[|queried| - 1];
      if |queried| > 1 && VenueKey(queried[|queried| - 2]) == VenueKey(v) then
        AddToLast(before, Entry(v, shows, now))
      else
        before + [Area(v.city, v.state, [Entry(v, shows, now)])]
  }

  /** The `venues` handler. The list of venues is the result of the query ordering the
      Venue table by city; it fails (`data[len(data) - 1]` of an empty list) exactly when
      the first venue's city and state are both empty, since the previous key starts out
      as the empty string. */
  method Venues(queried: seq<Venue>, shows: seq<Show>, now: Timestamp) returns (areas: Option<seq<Area>>)
    ensures areas.None? <==> |queried| > 0 && VenueKey(queried[0]) == ""
    ensures areas.Some? ==> areas.value == Grouped(queried, shows, now)
    ensures areas.Some? ==> Flatten(areas.value) == Entries(queried, shows, now)
    ensures areas.Some? ==> forall i :: 0 <= i < |areas.value| ==> |areas.value[i].venues| > 0
    ensures areas.Some? ==> AdjacentKeysDiffer(areas.value)
  {
    var previousKey := "";
    var data: seq<Area> := [];
    for i := 0 to |queried|
      invariant data == Grouped(queried[..i], shows, now)
      invariant previousKey == if i == 0 then "" else VenueKey(queried[i - 1])
      invariant i > 0 ==> VenueKey(queried[0]) != ""
    {
      var venue := queried[i];
      var upcoming := Filter(shows, UpcomingAt(venue.id, now));
      var entry := IndexVenue(venue.id, venue.name, |upcoming|);
      GroupedStep(queried, i, shows, now);
      if previousKey == venue.city + venue.state {
        if data == [] {
          return None;
        }
        data := AddToLast(data, entry);
      } else {
        previousKey := venue.city + venue.state;
        data := data + [Area(venue.city, venue.state, [entry])];
      }
    }
    assert queried[..|queried|] == queried;
    GroupedFlatten(queried, shows, now);
    GroupedAreasNonEmpty(queried, shows, now);
    GroupedAdjacentKeysDiffer(queried, shows, now);
    return Some(data);
  }

  /** One step of the walk: the areas after venue `i` from those before it. */
  lemma GroupedStep(queried: seq<Venue>, i: nat, shows: seq<Show>, now: Timestamp)
    requires i < |queried|
    ensures Grouped(queried[..i + 1], shows, now) ==
      if i > 0 && VenueKey(queried[i - 1]) == VenueKey(queried[i])
      then AddToLast(Grouped(queried[..i], shows, now), Entry(queried[i], shows, now))
      else Grouped(queried[..i], shows, now) + [Area(queried[i].city, queried[i].state, [Entry(queried[i], shows, now)])]
  {
    assert queried[..i + 1][..i] == queried[..i];
  }

  lemma FlattenAddToLast(areas: seq<Area>, e: IndexVenue)
    requires areas != []
    ensures Flatten(AddToLast(areas, e)) == Flatten(areas) + [e]
  {
    var after := AddToLast(areas, e);
    assert after[..|after| - 1] == areas[..|areas| - 1];
  }

  lemma FlattenOpen(areas: seq<Area>, a: Area)
    ensures Flatten(areas + [a]) == Flatten(areas) + a.venues
  {
    assert (areas + [a])[..|areas|] == areas;
  }

  lemma EntriesSnoc(queried: seq<Venue>, shows: seq<Show>, now: Timestamp)
    requires queried != []
    ensures Entries(queried, shows, now)
      == Entries(queried[..|queried| - 1], shows, now) + [Entry(queried[|queried| - 1], shows, now)]
  {
  }

  /** Concatenating the areas' lists gives back every queried venue exactly once, in query order. */
  lemma {:induction false} GroupedFlatten(queried: seq<Venue>, shows: seq<Show>, now: Timestamp)
    ensures Flatten(Grouped(queried, shows, now)) == Entries(queried, shows, now)
    decreases |queried|
  {
    if queried != [] {
      var init := queried[..|queried| - 1];
      var v := queried[|queried| - 1];
      GroupedFlatten(init, shows, now);
      EntriesSnoc(queried, shows, now);
      if |queried| > 1 && VenueKey(queried[|queried| - 2]) == VenueKey(v) {
        FlattenAddToLast(Grouped(init, shows, now), Entry(v, shows, now));
      } else {
        FlattenOpen(Grouped(init, shows, now), Area(v.city, v.state, [Entry(v, shows, now)]));
      }
    }
  }

  /** The last area carries the key of the last venue walked. */
  lemma {:induction false} GroupedLastKey(queried: seq<Venue>, shows: seq<Show>, now: Timestamp)
    requires queried != []
    ensures var areas := Grouped(queried, shows, now);
      AreaKey(areas[|areas| - 1]) == VenueKey(queried[|queried| - 1])
    decreases |queried|
  {
    if |queried| > 1 {
      GroupedLastKey(queried[..|queried| - 1], shows, now);
      assert queried[..|queried| - 1][|queried| - 2] == queried[|queried| - 2];
    }
  }

  /** No area is empty. */
  lemma {:induction false} GroupedAreasNonEmpty(queried: seq<Venue>, shows: seq<Show>, now: Timestamp)
    ensures forall i :: 0 <= i < |Grouped(queried, shows, now)| ==> |Grouped(queried, shows, now)[i].venues| > 0
    decreases |queried|
  {
    if queried != [] {
      GroupedAreasNonEmpty(queried[..|queried| - 1], shows, now);
    }
  }

  predicate AdjacentKeysDiffer(areas: seq<Area>)
  {
    forall i :: 0 <= i < |areas| - 1 ==> AreaKey(areas[i]) != AreaKey(areas[i + 1])
  }

  /** Neighbouring areas have different keys. */
  lemma {:induction false} GroupedAdjacentKeysDiffer(queried: seq<Venue>, shows: seq<Show>, now: Timestamp)
    ensures AdjacentKeysDiffer(Grouped(queried, shows, now))
    decreases |queried|
  {
    if queried != [] {
      var init := queried[..|queried| - 1];
      var v := queried[|queried| - 1];
      var before := Grouped(init, shows, now);
      GroupedAdjacentKeysDiffer(init, shows, now);
      if |queried| > 1 {
        GroupedLastKey(init, shows, now);
        assert init[|init| - 1] == queried[|queried| - 2];
        if VenueKey(queried[|queried| - 2]) == VenueKey(v) {
          AddToLastKeepsKeys(before, Entry(v, shows, now));
        }
      }
    }
  }

  /** Equal keys sit next to each other in the query result. */
  predicate KeysContiguous(queried: seq<Venue>)
  {
    forall i, j, k :: 0 <= i < j < k < |queried| && VenueKey(queried[i]) == VenueKey(queried[k]) ==>
      VenueKey(queried[j]) == VenueKey(queried[i])
  }

  /** Some venue of `queried` has key `key`. */
  predicate KeyWalked(queried: seq<Venue>, key: string)
  {
    exists j :: 0 <= j < |queried| && VenueKey(queried[j]) == key
  }

  /** Adding to the last area changes no area's key. */
  lemma AddToLastKeepsKeys(areas: seq<Area>, e: IndexVenue)
    requires areas != []
    ensures |AddToLast(areas, e)| == |areas|
    ensures forall i :: 0 <= i < |areas| ==> AreaKey(AddToLast(areas, e)[i]) == AreaKey(areas[i])
  {
  }

  /** Every area's key is the key of some venue walked so far. */
  lemma {:induction false} GroupedKeysComeFromVenues(queried: seq<Venue>, shows: seq<Show>, now: Timestamp)
    ensures forall i :: 0 <= i < |Grouped(queried, shows, now)| ==>
      KeyWalked(queried, AreaKey(Grouped(queried, shows, now)[i]))
    decreases |queried|
  {
    if queried != [] {
      var init := queried[..|queried| - 1];
      var v := queried[|queried| - 1];
      GroupedKeysComeFromVenues(init, shows, now);
      var areas := Grouped(queried, shows, now);
      var before := Grouped(init, shows, now);
      if |queried| > 1 && VenueKey(queried[|queried| - 2]) == VenueKey(v) {
        AddToLastKeepsKeys(before, Entry(v, shows, now));
      }
      forall i | 0 <= i < |areas|
        ensures KeyWalked(queried, AreaKey(areas[i]))
      {
        if i < |before| {
          assert AreaKey(areas[i]) == AreaKey(before[i]);
          assert KeyWalked(init, AreaKey(before[i]));
          var j :| 0 <= j < |init| && VenueKey(init[j]) == AreaKey(before[i]);
          assert queried[j] == init[j];
        } else {
          assert VenueKey(queried[|queried| - 1]) == AreaKey(areas[i]);
        }
      }
    }
  }

  lemma ContiguousPrefix(queried: seq<Venue>)
    requires queried != [] && KeysContiguous(queried)
    ensures KeysContiguous(queried[..|queried| - 1])
  {
    var init := queried[..|queried| - 1];
    forall i, j, k | 0 <= i < j < k < |init| && VenueKey(init[i]) == VenueKey(init[k])
      ensures VenueKey(init[j]) == VenueKey(init[i])
    {
      assert init[i] == queried[i] && init[j] == queried[j] && init[k] == queried[k];
    }
  }

  /** Under contiguous keys, a venue whose key differs from its predecessor's has a key
      no earlier venue has. */
  lemma NewKeyNotWalkedBefore(queried: seq<Venue>)
    requires KeysContiguous(queried)
    requires |queried| > 1 && VenueKey(queried[|queried| - 2]) != VenueKey(queried[|queried| - 1])
    ensures !KeyWalked(queried[..|queried| - 1], VenueKey(queried[|queried| - 1]))
  {
    var init := queried[..|queried| - 1];
    var n := |queried|;
    forall j | 0 <= j < |init|
      ensures VenueKey(init[j]) != VenueKey(queried[n - 1])
    {
      assert init[j] == queried[j];
    }
  }

  /** When the query puts venues with equal keys next to each other, no key names two areas. */
  lemma {:induction false} ContiguousKeysGiveDistinctAreas(queried: seq<Venue>, shows: seq<Show>, now: Timestamp)
    requires KeysContiguous(queried)
    ensures forall i, j :: 0 <= i < j < |Grouped(queried, shows, now)| ==>
      AreaKey(Grouped(queried, shows, now)[i]) != AreaKey(Grouped(queried, shows, now)[j])
    decreases |queried|
  {
    if queried != [] {
      var init := queried[..|queried| - 1];
      var v := queried[|queried| - 1];
      ContiguousPrefix(queried);
      ContiguousKeysGiveDistinctAreas(init, shows, now);
      var before := Grouped(init, shows, now);
      var areas := Grouped(queried, shows, now);
      if |queried| > 1 && VenueKey(queried[|queried| - 2]) == VenueKey(v) {
        AddToLastKeepsKeys(before, Entry(v, shows, now));
      } else if |queried| > 1 {
        GroupedKeysComeFromVenues(init, shows, now);
        NewKeyNotWalkedBefore(queried);
        assert areas == before + [Area(v.city, v.state, [Entry(v, shows, now)])];
      }
    }
  }

  /** Ordering by city alone does not make keys contiguous: one city in two states,
      interleaved, splits an area in two. */
  lemma CityOrderCanSplitAnArea(shows: seq<Show>, now: Timestamp)
    ensures var il1 := Venue(1, "A", "Springfield", "IL", "", "", "", None, [], None, false, "");
      var mo := Venue(2, "B", "Springfield", "MO", "", "", "", None, [], None, false, "");
      var il2 := Venue(3, "C", "Springfield", "IL", "", "", "", None, [], None, false, "");
      var areas := Grouped([il1, mo, il2], shows, now);
      |areas| == 3 && AreaKey(areas[0]) == AreaKey(areas[2])
  {
    var il1 := Venue(1, "A", "Springfield", "IL", "", "", "", None, [], None, false, "");
    var mo := Venue(2, "B", "Springfield", "MO", "", "", "", None, [], None, false, "");
    var il2 := Venue(3, "C", "Springfield", "IL", "", "", "", None, [], None, false, "");
    var q := [il1, mo, il2];
    assert VenueKey(il1) != VenueKey(mo) by { assert VenueKey(il1)[11] != VenueKey(mo)[11]; }
    assert q[..1] == [il1] && q[..2] == [il1, mo] && q[..2][..1] == [il1];
    var one := Grouped([il1], shows, now);
    assert one == [Area("Springfield", "IL", [Entry(il1, shows, now)])];
    var two := Grouped([il1, mo], shows, now);
    assert two == one + [Area("Springfield", "MO", [Entry(mo, shows, now)])];
    assert Grouped(q, shows, now) == two + [Area("Springfield", "IL", [Entry(il2, shows, now)])];
  }

  /** The key is a plain concatenation: a venue in "a", "bc" and one in "ab", "c", which
      `order_by('city')` returns in that order, land in one area, listed under "a", "bc". */
  lemma ConcatenatedKeysMergeAreas(shows: seq<Show>, now: Timestamp)
    ensures var first := Venue(1, "A", "a", "bc", "", "", "", None, [], None, false, "");
      var second := Venue(2, "B", "ab", "c", "", "", "", None, [], None, false, "");
      var areas := Grouped([first, second], shows, now);
      |areas| == 1 && areas[0].city == "a" && areas[0].state == "bc" && |areas[0].venues| == 2
  {
    var first := Venue(1, "A", "a", "bc", "", "", "", None, [], None, false, "");
    var second := Venue(2, "B", "ab", "c", "", "", "", None, [], None, false, "");
    assert [first, second][..1] == [first];
    assert VenueKey(first) == VenueKey(second);
  }
}
